=== FILE: README.md ===
# Telegram relay manager — a Dafny model of its bookkeeping core

The repository holds two packages that manage Telegram accounts and the jobs
meant to relay messages between channels. Neither package relays anything
yet: the job runners are ten-second sleeps. What the code does decide is
bookkeeping over tables, sets and short strings. This project models that
logic as pure functions over immutable maps and sequences, and proves
properties about it.

- **Job orchestration** (`telegram_manager/services/job_runner.py`,
  `telegram_manager/routers/telegram_job_manager.py`). The job table is a map
  from id to `Job`. The stored status is `Enum(JobStatus) | Raw(string)`,
  because `stop_job_in_db` writes the Python string `"stopped"` into the
  integer column instead of enum value 4. `running_job_tasks` is a map from
  task handle to `Task(jobId, runner, done)`. The load/reload step cancels
  every tracked task that is not done, clears the registry, and schedules
  exactly the rows whose status is pending, running or failed. Endpoints are
  functions returning an HTTP `Reply`.
- **Bounded commit retry** (`telegram_manager/db/utils.py`). This is a
  recursive function over an environment that says what the k-th
  `db.commit()` does. It yields the number of commits, the sleep schedule
  `base·2^k` in milliseconds, and the error that propagated, if any.
- **Accounts and string handling** (`telegram_manager/services/telegram_client.py`,
  `telegram_manager/routers/telegram_account_manager.py`). The account table
  is keyed by phone number, and the session files on disk are a set of paths.
  Also modelled: partial update, create, delete, the `os.path.join` session
  path, the `PROXY` "scheme,host,port" parser, and the dialog filter.
- **Legacy `app/` package.** This covers the client manager (a map from
  account id to client) and the APScheduler state: a stopped scheduler with
  its persisted store and pending jobs, or a running one with its store,
  each a map from `job_id`. It also covers the composed message-job id, its
  deduplicating insert, and the log / send / mark-read handler. The account
  routes are covered too, with the `unique=True` constraints of
  `app/db/models.py`. These tables have no delete path, so each is a
  sequence in primary-key order.

Some properties hold by construction of the types. At most one account per
phone holds because the phone is the key of the account map. A job's
`jobType` is a plain `int`, so out-of-enum kinds are representable. A
`TelegramMessage` carries exactly one job id and a non-optional message id.
`Message.read` defaults to `DefaultRead = false`. At most one scheduler job
per `job_id` holds because the job store is a map. Stopping a job cannot
touch the registry of running tasks, because `StopJobInDb` does not take the registry as
an argument.

A few facts about the code shape the model. There are exactly two job
kinds, full and readtime. Deleting a job does not require it to be stopped
first, and stopping a job does not cancel its task. The status written on
stop is a raw string, not a member of the status enum. The account class
maps four columns and no bot token.

## Model

| member | source | states |
|---|---|---|
| TmModels.JobTypeCodes | telegram_manager/db/models.py:7-9 | there are exactly two job kinds, full = 0 and readtime = 1, and each code maps back to its kind |
| TmModels.StatusCodeRoundTrip | telegram_manager/db/models.py:11-16 | every status has a code in 0..4 and that code maps back to the same status |
| TmModels.StatusFromCodeRoundTrip | telegram_manager/db/models.py:11-16 | every code in 0..4 names a status whose code is that number |
| TmModels.StatusCodeInjective | telegram_manager/db/models.py:11-16 | distinct statuses have distinct codes |
| TmModels.SchedulableIsNotStopped | telegram_manager/services/job_runner.py:133-134 | the second filter (status ≠ 4) removes nothing the first kept; a raw status never passes the first filter and always passes the second |
| CommitRetry.CommitFrom | telegram_manager/db/utils.py:11-23 | from guarded attempt k on: every commit before the last hit a locked database, the sleeps are base·2^(k+i), and the last commit decides between returning and raising |
| CommitRetry.CommitWithRetry | telegram_manager/db/utils.py:7-23 | at most max(retries,0)+1 commits; every commit but the last was a locked error; it returns iff the last commit succeeded; an early stop means success or a non-lock error |
| CommitRetry.FirstSuccessReturns | telegram_manager/db/utils.py:13-14 | the first successful commit ends the call with no further commit |
| CommitRetry.OtherErrorPropagates | telegram_manager/db/utils.py:15-21 | an error whose lower-cased text lacks "database is locked" propagates at once, with no sleep after it and no retry |
| CommitRetry.AllLockedThenFinalCommit | telegram_manager/db/utils.py:22-23 | if every guarded attempt hits the lock, exactly one unguarded commit follows and its outcome is the result |
| CommitRetry.NoRetriesSingleCommit | telegram_manager/db/utils.py:11-23 | with retries ≤ 0 there is exactly one commit and no sleep |
| CommitRetry.DelaysDouble | telegram_manager/db/utils.py:17-19 | each sleep is twice the previous one |
| CommitRetry.TotalDelayBounded | telegram_manager/db/utils.py:11-19 | the sleeps sum to base·(2^(attempts−1) − 1), at most base·(2^retries − 1) |
| JobRunner.CreateJobInDb | telegram_manager/services/job_runner.py:23-35 | adds one row under a fresh id holding the five request fields unchanged, with status pending; every other row is unchanged |
| JobRunner.CreateAddsOneJob | telegram_manager/services/job_runner.py:23-35 | the table grows by exactly one row |
| JobRunner.RunnerFor | telegram_manager/services/job_runner.py:61-71 | type 0 selects the full runner, type 1 the readtime runner, and every other integer selects none |
| JobRunner.ScheduleJob | telegram_manager/services/job_runner.py:60-73 | a valid type adds one fresh, not-done task for that job with the matching runner; any other type raises "Invalid job_type" and spawns nothing; no job row is written |
| JobRunner.FinishTask | telegram_manager/services/job_runner.py:62-65 | a finishing task stays in the registry, marked done; nothing else changes |
| JobRunner.DiscardTask | telegram_manager/services/job_runner.py:64-69 | the done-callback removes only that task, and is a no-op when it is already gone |
| JobRunner.TaskTrackedUntilDone | telegram_manager/services/job_runner.py:62-69 | a spawned task is tracked and live until it finishes, and its callback restores the registry to what it was before the spawn |
| JobRunner.DeleteJobInDb | telegram_manager/services/job_runner.py:82-87 | a missing id raises ValueError; otherwise exactly that row is removed, whatever its status, and the others are unchanged |
| JobRunner.HealthCheckJob | telegram_manager/services/job_runner.py:89-93 | read-only: {job_id, stored status} for a present id, an error for an absent one |
| JobRunner.StopJobInDb | telegram_manager/services/job_runner.py:95-100 | a missing id raises ValueError and changes nothing; otherwise only that row's status changes, to the raw text "stopped" |
| JobRunner.StopIdempotent | telegram_manager/services/job_runner.py:95-100 | stopping twice equals stopping once, and a stopped row never holds enum value 4 |
| JobRunner.EnsureReadtimeJobExists | telegram_manager/services/job_runner.py:102-119 | afterwards a readtime row with status ≠ 4 exists; if one existed nothing changes, otherwise exactly the placeholder is created |
| JobRunner.EnsureReadtimeIdempotent | telegram_manager/services/job_runner.py:102-119 | a second call is a no-op |
| JobRunner.EnsureReadtimeCreatesOne | telegram_manager/services/job_runner.py:108-119 | with no live readtime row, exactly one row is added: placeholder accounts, channels 0, type 1, pending |
| JobRunner.RawStoppedCountsAsLive | telegram_manager/services/job_runner.py:95-119 | a readtime job stopped through the service still counts as "not stopped", so no placeholder is created |
| JobRunner.CancelAndClear | telegram_manager/services/job_runner.py:125-129 | exactly the tracked tasks that are not done are cancelled, and the registry ends empty |
| JobRunner.ScheduleEligible | telegram_manager/services/job_runner.py:133-138 | from an empty registry: one live task per eligible row with a valid type, with the matching runner, and no other tasks; the count equals the number of such rows; eligible rows with an invalid type are reported |
| JobRunner.ReloadAndScheduleAllJobs | telegram_manager/services/job_runner.py:142-159 | cancels exactly the live tracked tasks and keeps none of them; once every runnable eligible row is scheduled, exactly one fresh task per such row is tracked; the table is unchanged |
| JobRunner.LoadAndScheduleJobsOnStartup | telegram_manager/services/job_runner.py:121-140 | as the reload step, on the table after a readtime row has been ensured |
| JobRunner.TerminalJobsNeverScheduled | telegram_manager/services/job_runner.py:133-134 | completed, stopped and raw-"stopped" rows never get a task |
| JobRouter.StatusAsInt | telegram_manager/schemas/telegram_job.py:17 | a stored status passes the `int` field check iff it was written through the enum, and then it is that status's code |
| JobRouter.FromOrm | telegram_manager/schemas/telegram_job.py:10-20 | the response exists iff the stored status is an enum value; it then carries the row's id, type, accounts and channels, and the status's code |
| JobRouter.CreateJobAsWritten | telegram_manager/routers/telegram_job_manager.py:30-39 | the row is always persisted and no runner starts; an invalid type gets 400, and a valid one 500 from the missing `status_int` |
| JobRouter.ValidCreateFailsAsWritten | telegram_manager/routers/telegram_job_manager.py:32-39 | as written a valid request stores the same row as the corrected route but answers 500 with no runner, where the corrected route answers and starts it |
| JobRouter.CreateJob | telegram_manager/routers/telegram_job_manager.py:30-39 | with `status_int` as the stored integer: the row is always persisted; type 0/1 answers with the new job, status pending, and starts the matching runner; any other type answers 400 and starts nothing |
| JobRouter.InvalidTypeStillPersisted | telegram_manager/routers/telegram_job_manager.py:30-39 | an invalid type gets 400 while the table still gains the row |
| JobRouter.GetJobsAsWritten | telegram_manager/routers/telegram_job_manager.py:24-28 | the list answers iff the table is empty; any row makes it 500 |
| JobRouter.GetJobs | telegram_manager/routers/telegram_job_manager.py:24-28 | with `status_int` as the stored integer: 500 iff some row holds a raw status; otherwise exactly one validated response per row |
| JobRouter.GetJobAsWritten | telegram_manager/routers/telegram_job_manager.py:99-104 | 404 for a missing id and 500 for every present one |
| JobRouter.GetJob | telegram_manager/routers/telegram_job_manager.py:99-104 | with `status_int` as the stored integer: 404 for a missing id, 500 for a raw status, otherwise the row's validated response |
| JobRouter.GetJobAgreesWithList | telegram_manager/routers/telegram_job_manager.py:24-104 | whenever the list answers, each single read answers with that row's entry |
| JobRouter.StopThenGetFails | telegram_manager/routers/telegram_job_manager.py:60-104 | after `POST /stop/{id}`, both `GET /{id}` and `GET /` answer 500, because the stored text fails the `int` status field |
| JobRouter.GetJobFailsAsWritten | telegram_manager/routers/telegram_job_manager.py:99-104 | as written a present row with an enum status answers 500, where the corrected read answers |
| JobRouter.HealthJob | telegram_manager/routers/telegram_job_manager.py:45-50 | 404 iff the id is missing; otherwise {job_id, status} |
| JobRouter.DeleteJob | telegram_manager/routers/telegram_job_manager.py:52-58 | ValueError becomes 404 with the table unchanged; otherwise the row is gone |
| JobRouter.StopJob | telegram_manager/routers/telegram_job_manager.py:60-66 | ValueError becomes 404 with the table unchanged; otherwise only that row's status becomes raw "stopped" |
| JobRouter.ReloadAll | telegram_manager/routers/telegram_job_manager.py:68-74 | the reply is produced with the table and the registry untouched; the reload is only spawned |
| JobRouter.RunSpawnedReload | telegram_manager/routers/telegram_job_manager.py:68-74 | the spawned task, run on the state the reply left, cancels exactly the live tasks and then tracks exactly the runnable rows, with the table unchanged and invalid-type rows reported |
| JobRouter.ReloadAllThenSpawned | telegram_manager/routers/telegram_job_manager.py:68-74 | the route followed by its spawned task: the reply changes nothing, and the reload then reaches the service's promised state for the request's table and registry |
| JobRouter.RunJobDirectly | telegram_manager/routers/telegram_job_manager.py:76-89 | 404 for a missing id, 400 for an invalid type, otherwise the matching runner starts untracked; the row is never written |
| AccountService.SessionFilePath | telegram_manager/services/telegram_client.py:51-57 | the path is "session_files/<phone>.session", or "<phone>.session" when the phone is an absolute path (POSIX join) |
| AccountService.SessionFilePathInjective | telegram_manager/services/telegram_client.py:51-57 | distinct phones never get the same session path |
| AccountService.SaveSessionFile | telegram_manager/services/telegram_client.py:51-57 | the write fails iff the phone contains '/' and the directory it names is missing; on success the returned path is the derived one, it now exists, and the table is unchanged |
| AccountService.RemoveIfExists | telegram_manager/services/telegram_client.py:28-29 | a non-empty existing path is removed; nothing else is |
| AccountService.ApplyChanges | telegram_manager/services/telegram_client.py:22-32 | each of app_id, app_hash_id and session_file_path changes only when given a value; the record is unchanged iff every given value equals the stored one |
| AccountService.BotTokenNotPersisted | telegram_manager/services/telegram_client.py:31-32 | a bot token in an update never changes the stored record, since the class maps no such column |
| AccountService.UpdateAccountInDbAsWritten | telegram_manager/services/telegram_client.py:17-36 | 404 for a missing phone; otherwise the partial update, and a new session path removes the file at the old path even when the paths are equal |
| AccountService.UpdateAccountInDb | telegram_manager/services/telegram_client.py:17-36 | 404 for a missing phone; otherwise only that account changes, by the partial update, and the old session file is removed only when it differs from the new one |
| AccountService.UpdateKeepsNewSessionFile | telegram_manager/services/telegram_client.py:26-30 | after an update with an existing new session file, the account's session file exists |
| AccountService.UpdateVersionsAgree | telegram_manager/services/telegram_client.py:26-30 | the as-written and corrected updates differ only when the new session path equals the old one |
| AccountService.DeleteAccountInDb | telegram_manager/services/telegram_client.py:38-48 | 404 for a missing phone; otherwise that account and its session file are gone and every other account is unchanged |
| AccountService.CreateAccountInDbAsWritten | telegram_manager/services/telegram_client.py:59-66 | every call fails with 500 and adds no row, because the constructor rejects the unmapped `bot_token` keyword |
| AccountService.CreateAccountInDb | telegram_manager/services/telegram_client.py:59-70 | without the unmapped keyword: the new record holds exactly phone, app_id, app_hash_id and session path; every other record is kept; a duplicate phone fails at commit |
| AccountService.ParseProxy | telegram_manager/services/telegram_client.py:77-82 | unset or empty means no proxy; a part count other than 3 means no proxy; 3 parts give (scheme, host, int(port)); a port int() rejects raises |
| AccountService.ProxyRoundTrip | telegram_manager/services/telegram_client.py:77-82 | a setting written as "scheme,host,port" is parsed back to exactly that proxy |
| AccountService.ListChannels | telegram_manager/services/telegram_client.py:88-91 | every group or channel dialog appears as {id, name}, and every entry comes from such a dialog |
| AccountService.ListChannelsConcat | telegram_manager/services/telegram_client.py:88-91 | the listing distributes over concatenation, so iteration order is kept |
| AccountService.GetChannelsForAccount | telegram_manager/services/telegram_client.py:72-100 | 404 for a missing phone; a rejected port or failed start escapes without a disconnect; once started the client is always disconnected, and the reply is the listing, 403 for two-step verification, or 500 otherwise |
| AccountRouter.GetAccounts | telegram_manager/routers/telegram_account_manager.py:14-17 | one summary per account, holding only phone, app_id and app_hash_id |
| AccountRouter.CreateAccountAsWritten | telegram_manager/routers/telegram_account_manager.py:19-38 | an existing phone gets 400 with nothing written; any other phone gets 500 with no record added, and the session file stays behind whenever it could be written |
| AccountRouter.CreateFailsAsWritten | telegram_manager/routers/telegram_account_manager.py:32-36 | for every new phone the route as written answers 500 and leaves an orphaned session file, where the corrected route answers with the phone |
| AccountRouter.CreateAccount | telegram_manager/routers/telegram_account_manager.py:19-38 | succeeds iff the phone is new and its session file can be written; an existing phone gets 400 and a failed write 500, both with nothing changed; on success the record points at the derived session path, which now exists |
| AccountRouter.UpdateAccountAsWritten | telegram_manager/routers/telegram_account_manager.py:45-66 | succeeds iff the phone exists and any upload can be written; 404 before any file is written; on success the record gets the partial update and the files are the upload added, then the old session path removed |
| AccountRouter.UploadLostAsWritten | telegram_manager/routers/telegram_account_manager.py:58-64 | for any account stored at its derived session path (inserted directly, or created by the corrected create route), an update with an upload succeeds but leaves its session path pointing at a deleted file |
| AccountRouter.UpdateAccount | telegram_manager/routers/telegram_account_manager.py:45-66 | succeeds iff the phone exists and any upload can be written; 404 before any file is written, 500 with nothing changed on a failed write; otherwise app_id/app_hash_id change only when given, other accounts are kept, and an upload leaves the account on the derived path, which exists, with the files being the upload added and a different old session file removed |
| AccountRouter.DeleteAccount | telegram_manager/routers/telegram_account_manager.py:68-72 | the delegate's 404 passes through; otherwise exactly that account and its session file are removed, and every other account and file is kept |
| AppModels.InsertAccount | app/db/models.py:8-10 | the insert fails iff phone_number or api_id is already taken; a success appends the row and keeps both columns unique |
| AppModels.ReplaceAccount | app/db/models.py:8-10 | an overwrite fails iff another row holds the phone or api_id; a success keeps both columns unique |
| AppModels.InsertMessage | app/db/models.py:17 | the insert fails iff the message_id is already logged for any account; a success keeps message ids unique |
| AppModels.InsertMessageJob | app/db/models.py:25 | the insert fails iff the job_id exists; a success keeps job ids unique |
| AppClient.NewManager | app/telegram/client.py:7-8 | a new manager has no clients |
| AppClient.SessionName | app/telegram/client.py:11 | the session name is "sessions/" followed by the phone |
| AppClient.StartClient | app/telegram/client.py:10-14 | a client is registered under the account id, replacing any earlier entry, iff int(api_id) succeeds and the client starts |
| AppClient.SendMessage | app/telegram/client.py:30-33 | nothing is sent iff the account has no client; otherwise that client sends the given text to the channel |
| AppClient.StopClient | app/telegram/client.py:35-39 | removes only that account's client, disconnecting iff it had one |
| AppClient.StopClientIdempotent | app/telegram/client.py:35-39 | a second stop changes nothing and disconnects nothing |
| AppClient.StartThenStop | app/telegram/client.py:10-39 | start then stop leaves the other accounts' clients as they were |
| AppMessageHandler.LogAndForward | app/telegram/message_handler.py:9-23 | a fresh event adds exactly one row (message_id = str(id), content = text); the text is sent iff the output account has a client, and equals the logged content; the row ends read unless the send raised; a logged id raises and sends nothing |
| AppMessageHandler.HandleTelegramMessage | app/telegram/message_handler.py:6-25 | the same sequence, with the database handle closed on every path |
| AppMessageHandler.NoClientStillMarksRead | app/telegram/message_handler.py:18-23 | with no output client nothing is sent and the new row still ends read |
| AppMessageHandler.DuplicateEventRejected | app/telegram/message_handler.py:9-16 | handling the same event twice raises the second time, with nothing sent and nothing added |
| AppMessageHandler.ModuleManagerNeverSends | app/telegram/message_handler.py:4-20 | with the handler's own manager, which never gets a client, nothing is ever forwarded |
| AppScheduler.RemoveAllJobs | app/core/scheduler.py:28 | a running scheduler ends with an empty store; a stopped one loses only its pending jobs and keeps its persisted store |
| AppScheduler.StartScheduler | app/core/scheduler.py:14-16 | afterwards the scheduler runs; its store holds the old store's ids and the pending ids, a pending job replacing a stored one with the same id |
| AppScheduler.StartSchedulerIdempotent | app/core/scheduler.py:14-16 | starting twice equals starting once |
| AppScheduler.ShutdownScheduler | app/core/scheduler.py:18-20 | afterwards the scheduler is stopped with its store kept; a running one has nothing pending, and a stopped one is unchanged |
| AppScheduler.RestartKeepsScheduler | app/core/scheduler.py:14-20 | shutting down a running scheduler and starting it again gives it back unchanged |
| AppScheduler.AddJobs | app/core/scheduler.py:30-45 | exactly the job ids of rows whose input account has a client are added; other entries are kept; each added id holds the data of a row with that id |
| AppScheduler.RegisterJobs | app/core/scheduler.py:30-45 | the jobs go to the pending queue of a stopped scheduler, leaving its store untouched, and to the store of a running one |
| AppScheduler.ReloadJobsWith | app/core/scheduler.py:22-49 | afterwards the scheduler runs; it holds the ids of rows with a client, plus the persisted store if it was stopped, while a running scheduler's previous jobs are all dropped |
| AppScheduler.ReloadJobs | app/core/scheduler.py:22-49 | with the fresh manager built there, reload ends running with no jobs if it was running, and with its persisted store if it was stopped |
| AppScheduler.LoadSavedJobsWith | app/api/__init__.py:14-41 | nothing is dropped; the ids of rows with a client are added to the stored and pending ones, and the scheduler is started |
| AppScheduler.LoadSavedJobs | app/api/__init__.py:14-41 | with its fresh manager, startup registers nothing and only starts the scheduler |
| AppMessages.JobIdRoundTrip | app/api/messages/messages.py:56 | when neither channel contains '_', the job id decodes back to the four inputs |
| AppMessages.JobIdCollision | app/api/messages/messages.py:56-58 | distinct channel pairs containing '_' compose the same job id |
| AppMessages.CreateMessageJob | app/api/messages/messages.py:20-69 | no input client gives 404 with nothing stored or reloaded; otherwise a row is appended iff no row has the composed id, job ids stay unique, and the scheduler is reloaded over the result |
| AppMessages.CreateMessageJobIdempotent | app/api/messages/messages.py:56-69 | a repeated identical request stores nothing more; the first reload starts the scheduler with its persisted store if it was stopped and empty if it ran, and the second leaves it running and empty |
| AppMessages.CollidingRequestNotStored | app/api/messages/messages.py:56-67 | a later request whose id collides is answered normally but silently not stored |
| AppMessages.InlineMessageHandler | app/api/messages/messages.py:34-49 | a logged id raises with nothing sent or added; otherwise one row is logged, the event text is sent to the output channel iff the output account has a client, the raise happens iff that send fails, and the row ends read unless it raised; this is `handle_telegram_message` without closing a session |
| AppMessages.ModuleManagerAlwaysNotFound | app/api/messages/messages.py:11-32 | with the route's own manager, which never gets a client, every request is 404 and nothing changes |
| AppAccounts.CreateAccountAsWritten | app/api/accounts/accounts.py:19-34 | never succeeds: a registered phone gets 400 with nothing stored; otherwise 500, with the row committed unless its api_id clashes, and no client start |
| AppAccounts.UpdateAccountAsWritten | app/api/accounts/accounts.py:36-49 | never succeeds: an unknown id gets 404; otherwise 500, with the overwrite committed unless another row holds the phone or api_id, and no restart |
| AppAccounts.UpdateToSameValuesFailsAsWritten | app/api/accounts/accounts.py:36-49 | as written, even rewriting an account with its own values answers 500, though the table is unchanged |
| AppAccounts.CreateAccount | app/api/accounts/accounts.py:19-34 | with the client start handed to the running loop: a registered phone gets 400 and nothing is inserted; otherwise exactly api_id, api_hash and phone_number are stored under the next id and a client start is requested; a clashing api_id fails with nothing stored |
| AppAccounts.UpdateAccount | app/api/accounts/accounts.py:36-49 | with the restart handed to the running loop: an unknown id gets 404; otherwise all three fields are overwritten and a restart is requested, unless another row holds the phone or api_id, which fails at commit |
| AppAccounts.UpdateToSameValuesSucceeds | app/api/accounts/accounts.py:36-49 | rewriting an account with its own values succeeds and changes nothing |
| AppAccounts.ListAccounts | app/api/accounts/accounts.py:51-54 | every stored account, in id order, with its id |

## Findings

| source | as written | input that shows it | evidently intended | confidence | as-written member | corrected member |
|---|---|---|---|---|---|---|
| telegram_manager/routers/telegram_account_manager.py:58-64 | the route writes the upload to `session_files/<phone>.session` first; `update_account_in_db` then deletes the file at the account's old session path, which is that same path whenever the stored path is the derived one | an account whose stored `session_file_path` is `session_files/<phone>.session` (inserted directly, or created by the corrected create route; `POST /` as written creates none), then `PUT /{phone}` with an upload: the record points at a file that no longer exists | remove the old session file only when it differs from the new one | high; not executed | AccountRouter.UploadLostAsWritten | AccountRouter.UpdateAccount |
| telegram_manager/routers/telegram_job_manager.py:24-39 | the responses of `GET /`, `GET /{id}` and `POST /` read `job.status_int`, which the job record does not define (telegram_manager/db/models.py:26-37), so they raise AttributeError | `GET /{id}` of any stored job: 500; `POST /` with type 0: the row is stored, the reply is 500 and the runner never starts | answer with the stored integer status | high; not executed | JobRouter.GetJobFailsAsWritten | JobRouter.GetJob |
| telegram_manager/services/telegram_client.py:59-66 | `create_account_in_db` passes `bot_token=` to `TelegramAccount`, whose class maps no such column (telegram_manager/db/models.py:18-24); the declarative constructor raises TypeError for an unknown keyword, whatever its value | `POST /` with a phone not yet registered: the reply is 500, no record is added, and `session_files/<phone>.session` is left behind | store the four mapped fields | high; not executed | AccountRouter.CreateFailsAsWritten | AccountRouter.CreateAccount |
| app/api/accounts/accounts.py:19-34 | the route is a plain `def`, which FastAPI runs on a worker thread with no event loop, so `asyncio.create_task` raises RuntimeError after `db.commit()` | `POST /` with a new phone and api_id: the row is committed, no client starts, and the reply is 500 | start the client and answer with the stored account | high; not executed | AppAccounts.CreateAccountAsWritten | AppAccounts.CreateAccount |
| app/api/accounts/accounts.py:36-49 | the same `asyncio.create_task` calls in a plain `def` route raise after the commit | `PUT /{id}` with the account's own values: the table is unchanged, no restart happens, and the reply is 500 | restart the client and answer with the stored account | high; not executed | AppAccounts.UpdateToSameValuesFailsAsWritten | AppAccounts.UpdateAccount |

`AccountRouter.UpdateAccountAsWritten` and `AccountService.UpdateAccountInDbAsWritten`
are the code as written. `AccountService.UpdateAccountInDb` is the corrected
service, and `AccountService.UpdateKeepsNewSessionFile` proves that the new
file survives. `AccountRouter.UpdateAccount` uses the corrected service.
`AccountService.UpdateVersionsAgree` shows that the two versions differ only
in this case.

`AccountService.CreateAccountInDbAsWritten` and `AccountRouter.CreateAccountAsWritten`
are the create path as written. `AccountService.CreateAccountInDb` and
`AccountRouter.CreateAccount` leave out the unmapped keyword.

`AppAccounts.CreateAccountAsWritten` and `AppAccounts.UpdateAccountAsWritten`
commit exactly what the corrected routes commit, which their contracts state.
They differ only in the reply and in the missing client request.

`JobRouter.CreateJobAsWritten`, `JobRouter.GetJobsAsWritten` and
`JobRouter.GetJobAsWritten` are the job reads as written. `JobRouter.CreateJob`,
`JobRouter.GetJobs` and `JobRouter.GetJob` read `status_int` as the stored
integer status. They still fail on a raw status, because the response's
`status` field is an `int`.

## Left out

- Telethon: `start`, `iter_dialogs`, `send_message`, `disconnect` and event subscription are external. Their outcomes are parameters (`startOk`, `DialogListing`, `sendOk`) or reported effects (`Outgoing`, `RunnerStart`, `ClientRequest`).
- The runner bodies `run_full_job` / `run_readtime_job` are ten-second sleeps with no effect on any table. A task is only its job id, its runner and a done flag.
- asyncio mechanics: `run_async_job`'s event-loop selection, `gather` timing and cancellation delivery. When `gather` raises because a row has an invalid type, this is reported as the `rejected` set; the other rows are still scheduled.
- The `stop_all` endpoint, and the import failure it causes. `telegram_manager/routers/telegram_job_manager.py:15` imports `stop_all_jobs_in_db`, which the service module does not define. That raises ImportError, so the router module cannot load, and neither can `telegram_manager/main.py`, which imports it at line 9. The `JobRouter` and `AccountRouter` members model the route bodies as they would run once that import resolves.
- The `bot_token` column created by the migration: the `TelegramAccount` class does not map it, so `Account` has no bot token. `AccountService.ApplyChanges` no longer promises that a given bot token is stored, because the attribute assignment is never persisted.
- AppScheduler.RegisterJobs: stores each job's data as if `add_job` succeeded. With the SQLAlchemy job store, the nested `job_func` cannot be serialized, so `add_job` on a running scheduler, or `start()` after one queued while stopped, would raise ValueError. No job is ever registered with the fresh managers both passes build, so this is never reached.
- The phone string is not checked for characters `open` rejects, such as NUL. `AccountService.SaveSessionFile` models only the missing directory that a '/' in the phone makes part of the path.
- A stored status of raw text makes even the corrected job reads answer 500 (`JobRouter.StopThenGetFails`). Writing enum value 4 on stop would avoid it, but that would be a different `stop_job_in_db`, which the model keeps as written.
- Timestamps (`created_at`, `updated_at`) are clock readings and are left out.
- Job ids come from a counter that never reuses an id. SQLite's rowid can reuse the highest id after that row is deleted.
- Commit failures inside the job and account operations are not threaded through them. Those operations model a successful commit; `commit_with_retry` is modelled on its own.
- CommitRetry.CommitWithRetry: sleeps are whole milliseconds (default base 100 ms), not float seconds.
- Text.ParseInt: accepts an optional sign and ASCII digits only. Python's `int()` also accepts surrounding whitespace, underscores and non-ASCII digits.
- Text.Lower: only ASCII case folding is modelled, not Unicode.
- File contents of uploads are not modelled. The file system is the set of existing paths.
- The `GET /channels/{phone}` route only wraps the service result, which `AccountService.GetChannelsForAccount` models.
- JobRunner.HealthCheck: the constant `{"status": "ok"}` (also served by `JobRouter.Health`) has nothing to state, so it has no contract.
- JobRouter.GetJobs: returns a map from id to response instead of a list in row order.
- AccountRouter.GetAccounts: returns a map keyed by phone instead of a list in row order.
- AppScheduler.AddJobs: says that an added id holds the data of some row with that id. It does not say that it is the last such row (`replace_existing`). Job ids are unique in the table, so at most one row qualifies.
- Foreign keys are not checked. SQLite does not enforce them by default, so a job may reference a phone with no account, as the readtime placeholder does.
- The closures built in the legacy registration loops bind their variables late. This does not matter here because no job is ever registered with a fresh manager, so `ScheduledJob` records each row's own data.
- The per-client handler inside `start_client` is left out: it uses `async with` on a synchronous session. Also left out: the truncated `remove_job`, and the ordering of the stop/start tasks in the legacy account update.
- The database handle of `reload_jobs` and `load_saved_jobs` is not modelled. No step of those models can fail, so the handle is closed on every path. The message handler does record `closed`.
- The inline handler of `create_message_job` is modelled even though the `job()` function that would register it is never called.

=== FILE: account_router.dfy ===
/** `telegram_manager/routers/telegram_account_manager.py`: the account endpoints. */
module AccountRouter {
  import opened Wrappers
  import opened Http
  import opened TmModels
  import opened AccountService

  /** The listed fields of an account; the session path is not among them. */
  datatype AccountSummary = AccountSummary(phoneNumber: string, appId: int, appHashId: string)

  /** `GET /`. */
  function GetAccounts(s: AccountStore): (r: map<string, AccountSummary>)
    ensures r.Keys == s.accounts.Keys
    ensures forall p :: p in r ==>
      r[p].phoneNumber == p && r[p].appId == s.accounts[p].appId && r[p].appHashId == s.accounts[p].appHashId
  {
    map p | p in s.accounts :: AccountSummary(p, s.accounts[p].appId, s.accounts[p].appHashId)
  }

  const PhoneTaken := "Account with this phone number already exists"

  /**
    `POST /` as written: a phone already registered is refused before
    anything is written; otherwise the upload is saved at the derived path,
    and then the service's constructor rejects its `bot_token` keyword, so the
    route answers 500 and leaves the saved file with no record.
   */
  function CreateAccountAsWritten(s: AccountStore, phone: string, appId: int, appHashId: string,
                                  parentExists: bool): (r: (AccountStore, Reply<string>))
    ensures r.1.HttpError?
    ensures phone in s.accounts ==> r.1.code == BadRequest && r.0 == s
    ensures phone !in s.accounts ==> r.1 == HttpError(InternalServerError, Unhandled) && r.0.accounts == s.accounts
    ensures phone !in s.accounts ==>
      r.0.files == if WriteSucceeds(phone, parentExists) then s.files + {SessionFilePath(phone)} else s.files
  {
    if phone in s.accounts then (s, HttpError(BadRequest, PhoneTaken))
    else
      match SaveSessionFile(s, phone, parentExists)
      case None => (s, HttpError(InternalServerError, Unhandled))
      case Some((saved, path)) =>
        match CreateAccountInDbAsWritten(saved, phone, appId, appHashId, path, None)
        case Respond(s') => (s', Respond(phone))
        case HttpError(code, detail) => (saved, HttpError(code, detail))
  }

  /** As written, no new phone can be registered, and its session file is left behind. */
  lemma CreateFailsAsWritten(s: AccountStore, phone: string, appId: int, appHashId: string)
    requires phone !in s.accounts
    ensures var (saved, reply) := CreateAccountAsWritten(s, phone, appId, appHashId, true);
      && reply == HttpError(InternalServerError, Unhandled)
      && phone !in saved.accounts
      && SessionFilePath(phone) in saved.files
    ensures CreateAccount(s, phone, appId, appHashId, true).1 == Respond(phone)
  {
  }

  /**
    `POST /` with the service storing only the mapped fields: a phone already
    registered is refused before anything is written; otherwise the upload is
    saved at the derived path and the record points at it. A session file
    that cannot be opened fails the request with nothing changed.
   */
  function CreateAccount(s: AccountStore, phone: string, appId: int, appHashId: string,
                         parentExists: bool): (r: (AccountStore, Reply<string>))
    ensures r.1.Respond? <==> phone !in s.accounts && WriteSucceeds(phone, parentExists)
    ensures phone in s.accounts ==> r.1.code == BadRequest && r.0 == s
    ensures phone !in s.accounts && !WriteSucceeds(phone, parentExists) ==>
      r.1 == HttpError(InternalServerError, Unhandled) && r.0 == s
    ensures r.1.Respond? ==>
      && r.1.body == phone
      && r.0.accounts == s.accounts[phone := Account(appId, appHashId, SessionFilePath(phone))]
      && r.0.files == s.files + {SessionFilePath(phone)}
  {
    if phone in s.accounts then (s, HttpError(BadRequest, PhoneTaken))
    else
      match SaveSessionFile(s, phone, parentExists)
      case None => (s, HttpError(InternalServerError, Unhandled))
      case Some((saved, path)) =>
        match CreateAccountInDb(saved, phone, appId, appHashId, path)
        case Respond(s') => (s', Respond(phone))
        case HttpError(code, detail) => (saved, HttpError(code, detail))
  }

  /** The route's arguments: the service is never handed a bot token. */
  function RouteChanges(appId: Option<int>, appHashId: Option<string>, path: Option<string>): AccountChanges {
    AccountChanges(appId, appHashId, path, None)
  }

  /** The upload step shared by both update routes: `None` when `open` raised. */
  function SaveUpload(s: AccountStore, phone: string, upload: bool, parentExists: bool): Option<(AccountStore, Option<string>)> {
    if !upload then Some((s, None))
    else match SaveSessionFile(s, phone, parentExists)
      case None => None
      case Some((t, p)) => Some((t, Some(p)))
  }

  /**
    `PUT /{phone_number}` as written: the upload overwrites
    `session_files/<phone>.session`, and the service then removes the old
    session path, which for an account stored at its derived path is that
    same file.
   */
  function UpdateAccountAsWritten(s: AccountStore, phone: string, appId: Option<int>, appHashId: Option<string>,
                                  upload: bool, parentExists: bool): (r: (AccountStore, Reply<string>))
    ensures r.1.Respond? <==> phone in s.accounts && (!upload || WriteSucceeds(phone, parentExists))
    ensures phone !in s.accounts ==> r.1.code == NotFound && r.0 == s
    ensures phone in s.accounts && upload && !WriteSucceeds(phone, parentExists) ==>
      r.1 == HttpError(InternalServerError, Unhandled) && r.0 == s
    ensures r.1.Respond? ==>
      && r.1.body == phone
      && r.0.accounts == s.accounts[phone := ApplyChanges(s.accounts[phone],
           RouteChanges(appId, appHashId, if upload then Some(SessionFilePath(phone)) else None))]
      && (upload ==> r.0.files == (s.files + {SessionFilePath(phone)}) - ({s.accounts[phone].sessionFilePath} - {""}))
      && (!upload ==> r.0.files == s.files)
  {
    if phone !in s.accounts then (s, HttpError(NotFound, AccountNotFound))
    else
      match SaveUpload(s, phone, upload, parentExists)
      case None => (s, HttpError(InternalServerError, Unhandled))
      case Some((saved, path)) =>
        match UpdateAccountInDbAsWritten(saved, phone, RouteChanges(appId, appHashId, path))
        case Respond(s') => (s', Respond(phone))
        case HttpError(code, detail) => (saved, HttpError(code, detail))
  }

  /**
    Any account whose record points at `session_files/<phone>.session`,
    whether inserted directly or created by the corrected create route, loses
    its freshly uploaded session file on update.
   */
  lemma UploadLostAsWritten(s: AccountStore, phone: string)
    requires phone in s.accounts && s.accounts[phone].sessionFilePath == SessionFilePath(phone)
    ensures var (updated, reply) := UpdateAccountAsWritten(s, phone, None, None, true, true);
      && reply == Respond(phone)
      && updated.accounts[phone].sessionFilePath == SessionFilePath(phone)
      && SessionFilePath(phone) !in updated.files
  {
    assert |SessionFilePath(phone)| > 0;
  }

  /**
    `PUT /{phone_number}` with the service removing the old file only when
    it differs from the new one. A missing phone is refused before any file
    is written; a session file that cannot be opened fails the request with
    nothing changed.
   */
  function UpdateAccount(s: AccountStore, phone: string, appId: Option<int>, appHashId: Option<string>,
                         upload: bool, parentExists: bool): (r: (AccountStore, Reply<string>))
    ensures r.1.Respond? <==> phone in s.accounts && (!upload || WriteSucceeds(phone, parentExists))
    ensures phone !in s.accounts ==> r.1.code == NotFound && r.0 == s
    ensures phone in s.accounts && upload && !WriteSucceeds(phone, parentExists) ==>
      r.1 == HttpError(InternalServerError, Unhandled) && r.0 == s
    ensures r.1.Respond? ==>
      && r.1.body == phone
      && r.0.accounts.Keys == s.accounts.Keys
      && (forall p :: p in s.accounts && p != phone ==> r.0.accounts[p] == s.accounts[p])
      && r.0.accounts[phone].appId == appId.GetOr(s.accounts[phone].appId)
      && r.0.accounts[phone].appHashId == appHashId.GetOr(s.accounts[phone].appHashId)
      && (upload ==> r.0.accounts[phone].sessionFilePath == SessionFilePath(phone)
                     && SessionFilePath(phone) in r.0.files)
      && (upload ==> r.0.files == (s.files + {SessionFilePath(phone)})
                                    - ({s.accounts[phone].sessionFilePath} - {SessionFilePath(phone), ""}))
      && (!upload ==> r.0.accounts[phone].sessionFilePath == s.accounts[phone].sessionFilePath
                      && r.0.files == s.files)
  {
    if phone !in s.accounts then (s, HttpError(NotFound, AccountNotFound))
    else
      match SaveUpload(s, phone, upload, parentExists)
      case None => (s, HttpError(InternalServerError, Unhandled))
      case Some((saved, path)) =>
        match UpdateAccountInDb(saved, phone, RouteChanges(appId, appHashId, path))
        case Respond(s') => (s', Respond(phone))
        case HttpError(code, detail) => (saved, HttpError(code, detail))
  }

  /** `DELETE /{phone_number}`: the service's 404 passes through. */
  function DeleteAccount(s: AccountStore, phone: string): (r: (AccountStore, Reply<string>))
    ensures r.1.HttpError? <==> phone !in s.accounts
    ensures r.1.HttpError? ==> r.1.code == NotFound && r.0 == s
    ensures r.1.Respond? ==> r.0.accounts.Keys == s.accounts.Keys - {phone} && r.1.body == phone
    ensures r.1.Respond? ==> forall p :: p in r.0.accounts ==> r.0.accounts[p] == s.accounts[p]
    ensures r.1.Respond? ==> r.0.files == s.files - ({s.accounts[phone].sessionFilePath} - {""})
  {
    match DeleteAccountInDb(s, phone)
    case Respond(s') => (s', Respond(phone))
    case HttpError(code, detail) => (s, HttpError(code, detail))
  }
}

=== FILE: account_service.dfy ===
/**
  `telegram_manager/services/telegram_client.py`: the account table, the
  session files on disk, the `PROXY` setting parser and channel listing.
  Telethon's connection and dialog iteration are parameters: what `start()`
  did and what the dialog iteration produced.
 */
module AccountService {
  import opened Wrappers
  import opened Text
  import opened Http
  import opened TmModels

  /** Accounts keyed by phone number (the primary key), and the paths that exist on disk. */
  datatype AccountStore = AccountStore(accounts: map<string, Account>, files: set<string>)

  const SessionDir := "session_files"
  const SessionSuffix := ".session"
  const AccountNotFound := "Account not found"
  /** The reply FastAPI gives for an exception no handler catches. */

  predicate IsAbsolute(p: string) {
    |p| > 0 && p[0] == '/'
  }

  /**
    `os.path.join("session_files", f"{phone}.session")`: POSIX `join` drops
    the directory when the second part is absolute.
   */
  function SessionFilePath(phone: string): (path: string)
    ensures !IsAbsolute(phone) ==> path == SessionDir + "/" + phone + SessionSuffix
    ensures IsAbsolute(phone) ==> path == phone + SessionSuffix
  {
    var name := phone + SessionSuffix;
    if IsAbsolute(name) then name else SessionDir + "/" + name
  }

  lemma StripAffixes(p: string, a: string, b: string, q: string)
    requires p + a + q == p + b + q
    ensures a == b
  {
    var x := p + a + q;
    assert |a| == |b|;
    assert a == x[|p|..|p| + |a|];
    assert b == (p + b + q)[|p|..|p| + |b|];
  }

  /** Distinct phones never share a session file. */
  lemma SessionFilePathInjective(a: string, b: string)
    ensures SessionFilePath(a) == SessionFilePath(b) ==> a == b
  {
    if SessionFilePath(a) == SessionFilePath(b) {
      if IsAbsolute(a) && IsAbsolute(b) {
        assert "" + a + SessionSuffix == a + SessionSuffix;
        assert "" + b + SessionSuffix == b + SessionSuffix;
        StripAffixes("", a, b, SessionSuffix);
      } else if !IsAbsolute(a) && !IsAbsolute(b) {
        StripAffixes(SessionDir + "/", a, b, SessionSuffix);
      }
    }
  }

  /**
    Whether `open(path, "wb")` can create the session file. `makedirs`
    creates `session_files` itself, so a phone without '/' always has its
    directory; a '/' inside the phone puts the file in a directory nothing
    creates, and `parentExists` is what the file system says about it.
   */
  predicate WriteSucceeds(phone: string, parentExists: bool) {
    '/' !in phone || parentExists
  }

  /**
    `save_session_file`: the upload is written to the derived path; when the
    directory is missing, `open` raises and nothing is written.
   */
  function SaveSessionFile(s: AccountStore, phone: string, parentExists: bool): (r: Option<(AccountStore, string)>)
    ensures r.Some? <==> WriteSucceeds(phone, parentExists)
    ensures r.Some? ==> r.value.1 == SessionFilePath(phone)
    ensures r.Some? ==> r.value.0.accounts == s.accounts && r.value.0.files == s.files + {r.value.1}
  {
    if WriteSucceeds(phone, parentExists) then
      var path := SessionFilePath(phone);
      Some((s.(files := s.files + {path}), path))
    else None
  }

  /** `if path and os.path.exists(path): os.remove(path)`. */
  function RemoveIfExists(files: set<string>, path: string): (r: set<string>)
    ensures r == files - ({path} - {""})
  {
    if |path| > 0 && path in files then files - {path} else files
  }

  /**
    The optional fields of `update_account_in_db`; `None` leaves a field
    alone. A bot token is assigned to an attribute the class does not map,
    so it never reaches the table.
   */
  datatype AccountChanges = AccountChanges(
    appId: Option<int>,
    appHashId: Option<string>,
    sessionFilePath: Option<string>,
    botToken: Option<string>)

  function ApplyChanges(a: Account, c: AccountChanges): (r: Account)
    ensures r.appId == c.appId.GetOr(a.appId)
    ensures r.appHashId == c.appHashId.GetOr(a.appHashId)
    ensures r.sessionFilePath == c.sessionFilePath.GetOr(a.sessionFilePath)
    ensures r == a <==> c.appId.GetOr(a.appId) == a.appId && c.appHashId.GetOr(a.appHashId) == a.appHashId
                        && c.sessionFilePath.GetOr(a.sessionFilePath) == a.sessionFilePath
  {
    Account(c.appId.GetOr(a.appId), c.appHashId.GetOr(a.appHashId), c.sessionFilePath.GetOr(a.sessionFilePath))
  }

  /** Whatever bot token an update carries, the stored record is the same. */
  lemma BotTokenNotPersisted(a: Account, c: AccountChanges, token: Option<string>)
    ensures ApplyChanges(a, c) == ApplyChanges(a, c.(botToken := token))
  {
  }

  /**
    `update_account_in_db` as written: a new session path removes the file at
    the old path, even when the old path is the new one.
   */
  function UpdateAccountInDbAsWritten(s: AccountStore, phone: string, c: AccountChanges): (r: Reply<AccountStore>)
    ensures r.HttpError? <==> phone !in s.accounts
    ensures r.HttpError? ==> r.code == NotFound && r.detail == AccountNotFound
    ensures r.Respond? ==> r.body.accounts == s.accounts[phone := ApplyChanges(s.accounts[phone], c)]
    ensures r.Respond? && c.sessionFilePath.Some? ==>
      r.body.files == s.files - ({s.accounts[phone].sessionFilePath} - {""})
    ensures r.Respond? && c.sessionFilePath.None? ==> r.body.files == s.files
  {
    if phone !in s.accounts then HttpError(NotFound, AccountNotFound)
    else
      var current := s.accounts[phone];
      var files := if c.sessionFilePath.Some? then RemoveIfExists(s.files, current.sessionFilePath) else s.files;
      Respond(AccountStore(s.accounts[phone := ApplyChanges(current, c)], files))
  }

  /**
    `update_account_in_db` as intended: the old session file is removed only
    when it is a different file from the one replacing it.
   */
  function UpdateAccountInDb(s: AccountStore, phone: string, c: AccountChanges): (r: Reply<AccountStore>)
    ensures r.HttpError? <==> phone !in s.accounts
    ensures r.HttpError? ==> r.code == NotFound && r.detail == AccountNotFound
    ensures r.Respond? ==> r.body.accounts.Keys == s.accounts.Keys
    ensures r.Respond? ==> forall p :: p in s.accounts && p != phone ==> r.body.accounts[p] == s.accounts[p]
    ensures r.Respond? ==> r.body.accounts[phone] == ApplyChanges(s.accounts[phone], c)
    ensures r.Respond? && c.sessionFilePath.Some? ==>
      r.body.files == s.files - ({s.accounts[phone].sessionFilePath} - {c.sessionFilePath.value, ""})
    ensures r.Respond? && c.sessionFilePath.None? ==> r.body.files == s.files
  {
    if phone !in s.accounts then HttpError(NotFound, AccountNotFound)
    else
      var current := s.accounts[phone];
      var files :=
        if c.sessionFilePath.Some? && c.sessionFilePath.value != current.sessionFilePath
        then RemoveIfExists(s.files, current.sessionFilePath)
        else s.files;
      Respond(AccountStore(s.accounts[phone := ApplyChanges(current, c)], files))
  }

  /** After an update the account's session file exists whenever the new one did. */
  lemma UpdateKeepsNewSessionFile(s: AccountStore, phone: string, c: AccountChanges)
    requires phone in s.accounts && c.sessionFilePath.Some? && c.sessionFilePath.value in s.files
    ensures var r := UpdateAccountInDb(s, phone, c);
      r.Respond? && r.body.accounts[phone].sessionFilePath in r.body.files
  {
  }

  /** Both versions agree except when the new session path is the old one. */
  lemma UpdateVersionsAgree(s: AccountStore, phone: string, c: AccountChanges)
    requires phone !in s.accounts || c.sessionFilePath.None? || c.sessionFilePath.value != s.accounts[phone].sessionFilePath
    ensures UpdateAccountInDbAsWritten(s, phone, c) == UpdateAccountInDb(s, phone, c)
  {
  }

  /** `delete_account_in_db`: removes the record and its session file. */
  function DeleteAccountInDb(s: AccountStore, phone: string): (r: Reply<AccountStore>)
    ensures r.HttpError? <==> phone !in s.accounts
    ensures r.HttpError? ==> r.code == NotFound && r.detail == AccountNotFound
    ensures r.Respond? ==> r.body.accounts.Keys == s.accounts.Keys - {phone}
    ensures r.Respond? ==> forall p :: p in r.body.accounts ==> r.body.accounts[p] == s.accounts[p]
    ensures r.Respond? ==> r.body.files == s.files - ({s.accounts[phone].sessionFilePath} - {""})
  {
    if phone !in s.accounts then HttpError(NotFound, AccountNotFound)
    else Respond(AccountStore(s.accounts - {phone}, RemoveIfExists(s.files, s.accounts[phone].sessionFilePath)))
  }

  /**
    `create_account_in_db` as written: it passes `bot_token=` to a class that
    maps no such column, and the declarative constructor raises TypeError for
    an unknown keyword, whatever its value. No row is ever added, and the
    route answers 500.
   */
  function CreateAccountInDbAsWritten(s: AccountStore, phone: string, appId: int, appHashId: string,
                                      sessionFilePath: string, botToken: Option<string>): (r: Reply<AccountStore>)
    ensures r == HttpError(InternalServerError, Unhandled)
  {
    HttpError(InternalServerError, Unhandled)
  }

  /**
    `create_account_in_db` without the unmapped keyword: the record holds
    exactly the mapped arguments. The phone is the primary key, so a
    duplicate fails at commit with an integrity error nobody catches.
   */
  function CreateAccountInDb(s: AccountStore, phone: string, appId: int, appHashId: string,
                             sessionFilePath: string): (r: Reply<AccountStore>)
    ensures r.HttpError? <==> phone in s.accounts
    ensures r.HttpError? ==> r.code == InternalServerError
    ensures r.Respond? ==> r.body.files == s.files && r.body.accounts.Keys == s.accounts.Keys + {phone}
    ensures r.Respond? ==> forall p :: p in s.accounts ==> r.body.accounts[p] == s.accounts[p]
    ensures r.Respond? ==> r.body.accounts[phone] == Account(appId, appHashId, sessionFilePath)
  {
    if phone in s.accounts then HttpError(InternalServerError, Unhandled)
    else Respond(s.(accounts := s.accounts[phone := Account(appId, appHashId, sessionFilePath)]))
  }

  /** The `proxy` argument handed to the client. */
  datatype ProxyConfig = NoProxy | Proxy(scheme: string, host: string, port: int) | InvalidPort(text: string)

  /**
    The `PROXY` setting, "scheme,host,port". Unset or empty means no proxy;
    any part count other than three is ignored; a port `int()` rejects raises.
   */
  function ParseProxy(setting: Option<string>): (r: ProxyConfig)
    ensures setting.None? || setting == Some("") ==> r == NoProxy
    ensures setting.Some? && |Split(setting.value, ',')| != 3 ==> r == NoProxy
    ensures r.Proxy? ==> var parts := Split(setting.value, ',');
      |parts| == 3 && r.scheme == parts[0] && r.host == parts[1] && ParseInt(parts[2]) == Some(r.port)
    ensures r.InvalidPort? ==> var parts := Split(setting.value, ',');
      |parts| == 3 && ParseInt(parts[2]) == None && r.text == parts[2]
    ensures setting.Some? && setting.value != "" && |Split(setting.value, ',')| == 3 ==> !r.NoProxy?
  {
    match setting
    case None => NoProxy
    case Some(text) =>
      if |text| == 0 then NoProxy
      else
        var parts := Split(text, ',');
        if |parts| != 3 then NoProxy
        else match ParseInt(parts[2])
          case Some(port) => Proxy(parts[0], parts[1], port)
          case None => InvalidPort(parts[2])
  }

  function FormatProxy(scheme: string, host: string, port: int): string {
    Join([scheme, host, IntToString(port)], ',')
  }

  /** A setting written as "scheme,host,port" is read back as exactly that proxy. */
  lemma ProxyRoundTrip(scheme: string, host: string, port: int)
    requires ',' !in scheme && ',' !in host
    ensures ParseProxy(Some(FormatProxy(scheme, host, port))) == Proxy(scheme, host, port)
  {
    var parts := [scheme, host, IntToString(port)];
    SplitJoin(parts, ',');
    IntStringRoundTrip(port);
  }

  /** One entry of `client.iter_dialogs()`. */
  datatype Dialog = Dialog(id: int, name: string, isGroup: bool, isChannel: bool)

  datatype ChannelInfo = ChannelInfo(id: int, name: string)

  predicate IsListed(d: Dialog) {
    d.isGroup || d.isChannel
  }

  /** The dialogs that are a group or a channel, in iteration order, as {id, name}. */
  function ListChannels(ds: seq<Dialog>): (r: seq<ChannelInfo>)
    ensures |r| <= |ds|
    ensures forall d :: d in ds && IsListed(d) ==> ChannelInfo(d.id, d.name) in r
    ensures forall c :: c in r ==> exists d :: d in ds && IsListed(d) && c == ChannelInfo(d.id, d.name)
  {
    if |ds| == 0 then []
    else
      var rest := ListChannels(ds[1..]);
      assert forall d :: d in ds[1..] ==> d in ds;
      if IsListed(ds[0]) then [ChannelInfo(ds[0].id, ds[0].name)] + rest else rest
  }

  /** The listing keeps iteration order: it distributes over concatenation. */
  lemma {:induction false} ListChannelsConcat(a: seq<Dialog>, b: seq<Dialog>)
    ensures ListChannels(a + b) == ListChannels(a) + ListChannels(b)
    decreases |a|
  {
    if |a| > 0 {
      assert (a + b)[1..] == a[1..] + b;
      ListChannelsConcat(a[1..], b);
    } else {
      assert a + b == b;
    }
  }

  /** How iterating the dialogs ended. */
  datatype DialogListing = Dialogs(dialogs: seq<Dialog>) | PasswordNeeded | ListingFailed(message: string)

  datatype ChannelsCall = ChannelsCall(reply: Reply<seq<ChannelInfo>>, started: bool, disconnected: bool)

  const PasswordRequired := "Two-step verification enabled, password required"

  /**
    `get_channels_for_account`. The proxy is parsed before the client is
    built; `start()` sits outside the `try`, so its failure escapes without a
    disconnect; every path inside the `try` disconnects.
   */
  function GetChannelsForAccount(s: AccountStore, phone: string, proxySetting: Option<string>,
                                 startOk: bool, listing: DialogListing): (r: ChannelsCall)
    ensures phone !in s.accounts ==> r.reply == HttpError(NotFound, AccountNotFound) && !r.started
    ensures r.disconnected <==> r.started
    ensures r.started <==> phone in s.accounts && !ParseProxy(proxySetting).InvalidPort? && startOk
    ensures r.started && listing.Dialogs? ==> r.reply == Respond(ListChannels(listing.dialogs))
    ensures r.started && listing.PasswordNeeded? ==> r.reply == HttpError(Forbidden, PasswordRequired)
    ensures r.started && listing.ListingFailed? ==> r.reply == HttpError(InternalServerError, listing.message)
    ensures !r.started && phone in s.accounts ==> r.reply == HttpError(InternalServerError, Unhandled)
  {
    if phone !in s.accounts then ChannelsCall(HttpError(NotFound, AccountNotFound), false, false)
    else if ParseProxy(proxySetting).InvalidPort? || !startOk then ChannelsCall(HttpError(InternalServerError, Unhandled), false, false)
    else match listing
      case Dialogs(ds) => ChannelsCall(Respond(ListChannels(ds)), true, true)
      case PasswordNeeded => ChannelsCall(HttpError(Forbidden, PasswordRequired), true, true)
      case ListingFailed(message) => ChannelsCall(HttpError(InternalServerError, message), true, true)
  }
}

=== FILE: app_accounts.dfy ===
/**
  `app/api/accounts/accounts.py`: create, update and list accounts. The
  client start and restart the routes launch are reported as requests,
  not performed.
 */
module AppAccounts {
  import opened Wrappers
  import opened Http
  import opened AppModels

  /** The `TelegramAccount` schema the routes return: the row with its id. */
  datatype AccountOut = AccountOut(id: nat, apiId: string, apiHash: string, phoneNumber: string)

  /** What a route asks of the module's account manager once it has committed. */
  datatype ClientRequest = StartRequested(accountId: nat) | RestartRequested(accountId: nat)

  datatype AccountsResult = AccountsResult(
    accounts: seq<AppAccount>, reply: Reply<AccountOut>, request: Option<ClientRequest>)

  predicate PhoneRegistered(accounts: seq<AppAccount>, phone: string) {
    exists i :: 0 <= i < |accounts| && accounts[i].phoneNumber == phone
  }

  function Out(id: nat, a: AppAccount): AccountOut {
    AccountOut(id, a.apiId, a.apiHash, a.phoneNumber)
  }


  /**
    `POST /` as written. The route is a plain `def`, so it runs on a worker
    thread with no event loop, and `asyncio.create_task` raises RuntimeError
    after the commit: a new row is stored, no client is started, and the
    caller sees 500.
   */
  function CreateAccountAsWritten(accounts: seq<AppAccount>, a: AppAccount): (r: AccountsResult)
    ensures r.reply.HttpError? && r.request == None
    ensures PhoneRegistered(accounts, a.phoneNumber) ==>
      r.reply == HttpError(BadRequest, "Phone number already registered") && r.accounts == accounts
    ensures !PhoneRegistered(accounts, a.phoneNumber) ==> r.reply == HttpError(InternalServerError, Unhandled)
    ensures r.accounts == accounts + [a] <==> !ClashesWith(accounts, a, -1)
    ensures r.accounts != accounts + [a] ==> r.accounts == accounts
    ensures r.accounts == CreateAccount(accounts, a).accounts
  {
    if PhoneRegistered(accounts, a.phoneNumber) then
      AccountsResult(accounts, HttpError(BadRequest, "Phone number already registered"), None)
    else match InsertAccount(accounts, a)
      case Err(_) => AccountsResult(accounts, HttpError(InternalServerError, Unhandled), None)
      case Ok(accounts') => AccountsResult(accounts', HttpError(InternalServerError, Unhandled), None)
  }

  /**
    `PUT /{account_id}` as written: like `POST /`, the commit happens and
    then `asyncio.create_task` raises, so the change is stored, the client is
    not restarted, and the caller sees 500.
   */
  function UpdateAccountAsWritten(accounts: seq<AppAccount>, id: int, a: AppAccount): (r: AccountsResult)
    ensures r.reply.HttpError? && r.request == None
    ensures !(1 <= id <= |accounts|) ==> r.reply == HttpError(NotFound, "Account not found") && r.accounts == accounts
    ensures 1 <= id <= |accounts| ==> r.reply == HttpError(InternalServerError, Unhandled)
    ensures 1 <= id <= |accounts| && !ClashesWith(accounts, a, id - 1) ==> r.accounts == accounts[id - 1 := a]
    ensures 1 <= id <= |accounts| && ClashesWith(accounts, a, id - 1) ==> r.accounts == accounts
    ensures r.accounts == UpdateAccount(accounts, id, a).accounts
  {
    if !(1 <= id <= |accounts|) then AccountsResult(accounts, HttpError(NotFound, "Account not found"), None)
    else match ReplaceAccount(accounts, id - 1, a)
      case Err(_) => AccountsResult(accounts, HttpError(InternalServerError, Unhandled), None)
      case Ok(accounts') => AccountsResult(accounts', HttpError(InternalServerError, Unhandled), None)
  }

  /** As written, even a no-op update answers 500, though it leaves the table as it was. */
  lemma UpdateToSameValuesFailsAsWritten(accounts: seq<AppAccount>, id: int)
    requires UniqueAccounts(accounts) && 1 <= id <= |accounts|
    ensures UpdateAccountAsWritten(accounts, id, accounts[id - 1]).reply == HttpError(InternalServerError, Unhandled)
    ensures UpdateAccountAsWritten(accounts, id, accounts[id - 1]).accounts == accounts
  {
    UpdateToSameValuesSucceeds(accounts, id);
  }

  /**
    `POST /` with the client start handed to the running loop rather than
    created on the worker thread: a registered phone is refused with 400. Otherwise exactly the
    three fields are inserted; a clashing `api_id` fails at commit.
   */
  function CreateAccount(accounts: seq<AppAccount>, a: AppAccount): (r: AccountsResult)
    ensures PhoneRegistered(accounts, a.phoneNumber) ==>
      r.reply == HttpError(BadRequest, "Phone number already registered") && r.accounts == accounts && r.request == None
    ensures r.reply.Respond? <==> !ClashesWith(accounts, a, -1)
    ensures r.reply.HttpError? ==> r.accounts == accounts && r.request == None
    ensures r.reply.Respond? ==>
      && r.accounts == accounts + [a]
      && r.reply.body == Out(|accounts| + 1, a)
      && r.request == Some(StartRequested(|accounts| + 1))
    ensures UniqueAccounts(accounts) ==> UniqueAccounts(r.accounts)
  {
    if PhoneRegistered(accounts, a.phoneNumber) then
      AccountsResult(accounts, HttpError(BadRequest, "Phone number already registered"), None)
    else match InsertAccount(accounts, a)
      case Err(_) => AccountsResult(accounts, HttpError(InternalServerError, Unhandled), None)
      case Ok(accounts') => AccountsResult(accounts', Respond(Out(|accounts'|, a)), Some(StartRequested(|accounts'|)))
  }

  /**
    `PUT /{account_id}` with the restart handed to the running loop: 404 for an unknown id; otherwise all three fields
    are overwritten. The route checks no uniqueness itself; the unique
    columns make a clashing update fail at commit.
   */
  function UpdateAccount(accounts: seq<AppAccount>, id: int, a: AppAccount): (r: AccountsResult)
    ensures !(1 <= id <= |accounts|) ==> r.reply == HttpError(NotFound, "Account not found") && r.accounts == accounts
    ensures r.reply.Respond? <==> 1 <= id <= |accounts| && !ClashesWith(accounts, a, id - 1)
    ensures r.reply.HttpError? ==> r.accounts == accounts && r.request == None
    ensures r.reply.Respond? ==>
      && r.accounts == accounts[id - 1 := a]
      && r.reply.body == Out(id, a)
      && r.request == Some(RestartRequested(id))
    ensures UniqueAccounts(accounts) ==> UniqueAccounts(r.accounts)
  {
    if !(1 <= id <= |accounts|) then AccountsResult(accounts, HttpError(NotFound, "Account not found"), None)
    else match ReplaceAccount(accounts, id - 1, a)
      case Err(_) => AccountsResult(accounts, HttpError(InternalServerError, Unhandled), None)
      case Ok(accounts') => AccountsResult(accounts', Respond(Out(id, a)), Some(RestartRequested(id)))
  }

  /** Updating an account to its own current values always succeeds on a consistent table. */
  lemma UpdateToSameValuesSucceeds(accounts: seq<AppAccount>, id: int)
    requires UniqueAccounts(accounts) && 1 <= id <= |accounts|
    ensures UpdateAccount(accounts, id, accounts[id - 1]).reply.Respond?
    ensures UpdateAccount(accounts, id, accounts[id - 1]).accounts == accounts
  {
  }

  /** `GET /`: every stored account, in id order. */
  function ListAccounts(accounts: seq<AppAccount>): (r: seq<AccountOut>)
    ensures |r| == |accounts|
    ensures forall i :: 0 <= i < |r| ==> r[i] == Out(i + 1, accounts[i])
  {
    seq(|accounts|, i requires 0 <= i < |accounts| => Out(i + 1, accounts[i]))
  }
}

=== FILE: app_client.dfy ===
/**
  `app/telegram/client.py`: `TelegramAccountManager`, a map from account id
  to a started client. Telethon is external: whether `start()` succeeds is a
  parameter, and a client is the session name and credentials it was built with.
 */
module AppClient {
  import opened Wrappers
  import opened Text
  import opened AppModels

  datatype Client = Client(sessionName: string, apiId: int, apiHash: string)

  datatype AccountManager = AccountManager(clients: map<int, Client>)

  /** A message handed to a client's `send_message`. */
  datatype Outgoing = Outgoing(client: Client, channel: string, text: string)

  /** `TelegramAccountManager()`. */
  function NewManager(): (m: AccountManager)
    ensures forall id :: id !in m.clients
  {
    AccountManager(map[])
  }

  const SessionsDir := "sessions/"

  /** The session name a client is built with. */
  function SessionName(phone: string): (name: string)
    ensures |name| == |SessionsDir| + |phone|
    ensures name[..|SessionsDir|] == SessionsDir && name[|SessionsDir|..] == phone
  {
    SessionsDir + phone
  }

  /**
    `start_client`: `int(api_id)` may raise, and so may `start()`; only a
    started client is registered, under the account id, replacing any
    earlier entry.
   */
  function StartClient(m: AccountManager, accountId: int, a: AppAccount, startOk: bool): (r: Result<AccountManager, string>)
    ensures r.Ok? <==> ParseInt(a.apiId).Some? && startOk
    ensures r.Ok? ==> r.value.clients == m.clients[accountId := Client(SessionName(a.phoneNumber), ParseInt(a.apiId).value, a.apiHash)]
    ensures r.Err? ==> ParseInt(a.apiId).None? ==> r.error == "ValueError"
  {
    match ParseInt(a.apiId)
    case None => Err("ValueError")
    case Some(apiId) =>
      if !startOk then Err("connection failed")
      else Ok(AccountManager(m.clients[accountId := Client(SessionName(a.phoneNumber), apiId, a.apiHash)]))
  }

  /** `send_message`: a no-op for an account without a client. */
  function SendMessage(m: AccountManager, accountId: int, channel: string, text: string): (r: Option<Outgoing>)
    ensures r.None? <==> accountId !in m.clients
    ensures r.Some? ==> r.value == Outgoing(m.clients[accountId], channel, text)
  {
    if accountId in m.clients then Some(Outgoing(m.clients[accountId], channel, text)) else None
  }

  /** `stop_client`: disconnect and forget that account's client, if it has one. */
  function StopClient(m: AccountManager, accountId: int): (r: (AccountManager, bool))
    ensures r.1 <==> accountId in m.clients
    ensures r.0.clients.Keys == m.clients.Keys - {accountId}
    ensures forall id :: id in r.0.clients ==> r.0.clients[id] == m.clients[id]
  {
    (AccountManager(m.clients - {accountId}), accountId in m.clients)
  }

  /** Stopping twice is stopping once, and the second call disconnects nothing. */
  lemma StopClientIdempotent(m: AccountManager, accountId: int)
    ensures StopClient(StopClient(m, accountId).0, accountId).0 == StopClient(m, accountId).0
    ensures !StopClient(StopClient(m, accountId).0, accountId).1
  {
    var once := StopClient(m, accountId).0;
    assert StopClient(once, accountId).0.clients == once.clients;
  }

  /** Starting then stopping a client leaves the other accounts' clients as they were. */
  lemma StartThenStop(m: AccountManager, accountId: int, a: AppAccount)
    requires StartClient(m, accountId, a, true).Ok?
    ensures StopClient(StartClient(m, accountId, a, true).value, accountId).0 == StopClient(m, accountId).0
  {
    var started := StartClient(m, accountId, a, true).value;
    assert StopClient(started, accountId).0.clients == StopClient(m, accountId).0.clients;
  }
}

=== FILE: app_message_handler.dfy ===
/**
  `app/telegram/message_handler.py`: log an incoming message unread, forward
  its text when the output account has a client, then mark it read.
 */
module AppMessageHandler {
  import opened Wrappers
  import opened Text
  import opened AppModels
  import opened AppClient

  /** The parts of a new-message event that are used: its id and text. */
  datatype Event = Event(id: int, text: string)

  datatype HandlerRun = HandlerRun(
    messages: seq<Message>,  // the message table afterwards
    sent: Option<Outgoing>,  // what was handed to the output client
    raised: bool,            // an exception left the handler
    closed: bool)            // the database handle was closed

  /** The row logged for an event, before it is marked read. */
  function LoggedMessage(accountId: int, e: Event): Message {
    Message(accountId, IntToString(e.id), e.text, DefaultRead)
  }

  /**
    The log / send / mark-read sequence. The insert fails on a message id
    already logged (the column is unique across accounts); a failing send
    leaves the row unread.
   */
  function LogAndForward(messages: seq<Message>, m: AccountManager, inAccountId: int, outAccountId: int,
                         outputChannel: string, e: Event, sendOk: bool): (r: HandlerRun)
    ensures !r.closed
    ensures InsertMessage(messages, LoggedMessage(inAccountId, e)).Err? ==>
      r.messages == messages && r.sent == None && r.raised
    ensures InsertMessage(messages, LoggedMessage(inAccountId, e)).Ok? ==>
      && |r.messages| == |messages| + 1
      && r.messages[..|messages|] == messages
      && r.messages[|messages|].accountId == inAccountId
      && r.messages[|messages|].messageId == IntToString(e.id)
      && r.messages[|messages|].content == e.text
      && (r.sent.Some? <==> outAccountId in m.clients)
      && (r.sent.Some? ==> r.sent.value.text == r.messages[|messages|].content
                           && r.sent.value.channel == outputChannel)
      && (r.messages[|messages|].read <==> !r.raised)
      && (r.raised <==> outAccountId in m.clients && !sendOk)
  {
    var logged := LoggedMessage(inAccountId, e);
    match InsertMessage(messages, logged)
    case Err(_) => HandlerRun(messages, None, true, false)
    case Ok(withRow) =>
      var sent := SendMessage(m, outAccountId, outputChannel, e.text);
      if sent.Some? && !sendOk then HandlerRun(withRow, sent, true, false)
      else HandlerRun(messages + [logged.(read := true)], sent, false, false)
  }

  /** `handle_telegram_message`: the sequence above on its own session, closed on every path. */
  function HandleTelegramMessage(messages: seq<Message>, m: AccountManager, inAccountId: int, outAccountId: int,
                                 outputChannel: string, e: Event, sendOk: bool): (r: HandlerRun)
    ensures r.closed
    ensures r.(closed := false) == LogAndForward(messages, m, inAccountId, outAccountId, outputChannel, e, sendOk)
  {
    LogAndForward(messages, m, inAccountId, outAccountId, outputChannel, e, sendOk).(closed := true)
  }

  /** With no client for the output account nothing is sent, and the new row still ends read. */
  lemma NoClientStillMarksRead(messages: seq<Message>, m: AccountManager, inAccountId: int, outAccountId: int,
                               outputChannel: string, e: Event, sendOk: bool)
    requires outAccountId !in m.clients
    requires UniqueMessageIds(messages)
    requires forall i :: 0 <= i < |messages| ==> messages[i].messageId != IntToString(e.id)
    ensures var r := HandleTelegramMessage(messages, m, inAccountId, outAccountId, outputChannel, e, sendOk);
      && r.sent == None && !r.raised
      && r.messages == messages + [Message(inAccountId, IntToString(e.id), e.text, true)]
      && UniqueMessageIds(r.messages)
  {
  }

  /** The same event twice: the second insert hits the unique message id and nothing more is sent. */
  lemma DuplicateEventRejected(messages: seq<Message>, m: AccountManager, inAccountId: int, outAccountId: int,
                               outputChannel: string, e: Event)
    requires forall i :: 0 <= i < |messages| ==> messages[i].messageId != IntToString(e.id)
    ensures var first := HandleTelegramMessage(messages, m, inAccountId, outAccountId, outputChannel, e, true);
      var second := HandleTelegramMessage(first.messages, m, inAccountId, outAccountId, outputChannel, e, true);
      second.raised && second.sent == None && second.messages == first.messages
  {
    var first := HandleTelegramMessage(messages, m, inAccountId, outAccountId, outputChannel, e, true);
    assert first.messages[|messages|].messageId == IntToString(e.id);
  }

  /**
    The handler consults its module-level manager, on which no code path
    starts a client: nothing is ever forwarded, and a fresh event is logged and marked read.
   */
  lemma ModuleManagerNeverSends(messages: seq<Message>, inAccountId: int, outAccountId: int,
                                outputChannel: string, e: Event, sendOk: bool)
    requires forall i :: 0 <= i < |messages| ==> messages[i].messageId != IntToString(e.id)
    ensures var r := HandleTelegramMessage(messages, NewManager(), inAccountId, outAccountId, outputChannel, e, sendOk);
      r.sent == None && !r.raised && r.closed && r.messages == messages + [LoggedMessage(inAccountId, e).(read := true)]
  {
  }
}

=== FILE: app_messages.dfy ===
/**
  `app/api/messages/messages.py`: `POST /jobs/`, which checks for an input
  client, stores a message job under a composed id unless one exists, and
  reloads the scheduler.
 */
module AppMessages {
  import opened Wrappers
  import opened Text
  import opened Http
  import opened AppModels
  import opened AppClient
  import opened AppMessageHandler
  import opened AppScheduler

  /** `f"message_job_{in}_{out}_{input_channel}_{output_channel}"`. */
  function ComposeJobId(inAccountId: int, outAccountId: int, inputChannel: string, outputChannel: string): string {
    "message_job_" + IntToString(inAccountId) + "_" + IntToString(outAccountId) + "_" + inputChannel + "_" + outputChannel
  }

  /** Reads the four inputs back out of a job id, when it has exactly the expected six pieces. */
  function DecodeJobId(jobId: string): Option<(int, int, string, string)> {
    var parts := Split(jobId, '_');
    if |parts| == 6 && parts[0] == "message" && parts[1] == "job" then
      match (ParseInt(parts[2]), ParseInt(parts[3]))
      case (Some(i), Some(o)) => Some((i, o, parts[4], parts[5]))
      case _ => None
    else None
  }

  lemma JoinSix(p0: string, p1: string, p2: string, p3: string, p4: string, p5: string)
    ensures Join([p0, p1, p2, p3, p4, p5], '_') == p0 + "_" + p1 + "_" + p2 + "_" + p3 + "_" + p4 + "_" + p5
  {
    assert [p4, p5][1..] == [p5];
    assert Join([p4, p5], '_') == p4 + "_" + p5;
    assert [p3, p4, p5][1..] == [p4, p5];
    assert Join([p3, p4, p5], '_') == p3 + "_" + p4 + "_" + p5;
    assert [p2, p3, p4, p5][1..] == [p3, p4, p5];
    assert Join([p2, p3, p4, p5], '_') == p2 + "_" + p3 + "_" + p4 + "_" + p5;
    assert [p1, p2, p3, p4, p5][1..] == [p2, p3, p4, p5];
    assert Join([p1, p2, p3, p4, p5], '_') == p1 + "_" + p2 + "_" + p3 + "_" + p4 + "_" + p5;
    assert [p0, p1, p2, p3, p4, p5][1..] == [p1, p2, p3, p4, p5];
  }

  lemma ComposeAsJoin(a: string, b: string, c: string, d: string)
    ensures "message_job_" + a + "_" + b + "_" + c + "_" + d == Join(["message", "job", a, b, c, d], '_')
  {
    JoinSix("message", "job", a, b, c, d);
    assert "message_job_" == "message" + "_" + "job" + "_";
  }

  /** For channels without '_', the job id determines all four inputs. */
  lemma JobIdRoundTrip(inAccountId: int, outAccountId: int, inputChannel: string, outputChannel: string)
    requires '_' !in inputChannel && '_' !in outputChannel
    ensures DecodeJobId(ComposeJobId(inAccountId, outAccountId, inputChannel, outputChannel))
              == Some((inAccountId, outAccountId, inputChannel, outputChannel))
  {
    var a := IntToString(inAccountId);
    var b := IntToString(outAccountId);
    var parts := ["message", "job", a, b, inputChannel, outputChannel];
    ComposeAsJoin(a, b, inputChannel, outputChannel);
    SplitJoin(parts, '_');
    IntStringRoundTrip(inAccountId);
    IntStringRoundTrip(outAccountId);
  }

  /** Distinct channel pairs containing '_' can compose the same job id. */
  lemma JobIdCollision()
    ensures ComposeJobId(1, 2, "a_b", "c") == ComposeJobId(1, 2, "a", "b_c")
    ensures ("a_b", "c") != ("a", "b_c")
  {
    assert IntToString(1) == "1" && IntToString(2) == "2";
  }

  predicate HasJobId(jobs: seq<MessageJob>, jobId: string) {
    exists i :: 0 <= i < |jobs| && jobs[i].jobId == jobId
  }

  datatype CreateJobResult = CreateJobResult(jobs: seq<MessageJob>, scheduler: Scheduler, reply: Reply<string>)

  const ClientMissingPrefix := "Telegram client for account "

  /**
    `create_message_job`. Without a client for the input account the reply is
    404 and nothing is stored. Otherwise a row is appended only if no row has
    the composed id, and `reload_jobs` runs over the resulting table.
   */
  function CreateMessageJob(m: AccountManager, jobs: seq<MessageJob>, s: Scheduler, inAccountId: int,
                            outAccountId: int, inputChannel: string, outputChannel: string): (r: CreateJobResult)
    ensures inAccountId !in m.clients ==>
      r.reply.HttpError? && r.reply.code == NotFound && r.jobs == jobs && r.scheduler == s
    ensures inAccountId in m.clients ==> var id := ComposeJobId(inAccountId, outAccountId, inputChannel, outputChannel);
      && r.reply.Respond?
      && (HasJobId(jobs, id) ==> r.jobs == jobs)
      && (!HasJobId(jobs, id) ==> r.jobs == jobs + [MessageJob(id, inAccountId, outAccountId, inputChannel, outputChannel)])
      && HasJobId(r.jobs, id)
      && (UniqueJobIds(jobs) ==> UniqueJobIds(r.jobs))
      && r.scheduler == ReloadJobs(s, r.jobs)
  {
    if inAccountId !in m.clients then
      CreateJobResult(jobs, s, HttpError(NotFound, ClientMissingPrefix + IntToString(inAccountId) + " not found"))
    else
      var id := ComposeJobId(inAccountId, outAccountId, inputChannel, outputChannel);
      var row := MessageJob(id, inAccountId, outAccountId, inputChannel, outputChannel);
      var jobs' := if HasJobId(jobs, id) then jobs else InsertMessageJob(jobs, row).value;
      assert jobs'[|jobs'| - 1].jobId == id || HasJobId(jobs, id);
      CreateJobResult(jobs', ReloadJobs(s, jobs'), Respond("Background job scheduled and saved for accounts "
        + IntToString(inAccountId) + " -> " + IntToString(outAccountId) + " from " + inputChannel + " to " + outputChannel))
  }

  /**
    Repeating the same request stores nothing more. The first reload starts
    the scheduler (a stopped one keeps its persisted store), and the second
    leaves it running and empty.
   */
  lemma CreateMessageJobIdempotent(m: AccountManager, jobs: seq<MessageJob>, s: Scheduler, inAccountId: int,
                                   outAccountId: int, inputChannel: string, outputChannel: string)
    requires inAccountId in m.clients
    ensures var first := CreateMessageJob(m, jobs, s, inAccountId, outAccountId, inputChannel, outputChannel);
      var second := CreateMessageJob(m, first.jobs, first.scheduler, inAccountId, outAccountId, inputChannel, outputChannel);
      && second.jobs == first.jobs
      && first.scheduler == Running(if s.Running? then map[] else s.jobs)
      && second.scheduler == Running(map[])
  {
  }

  /** A later request whose id collides with a stored one is silently not stored. */
  lemma CollidingRequestNotStored(m: AccountManager, s: Scheduler)
    requires 1 in m.clients
    ensures var first := CreateMessageJob(m, [], s, 1, 2, "a_b", "c");
      var second := CreateMessageJob(m, first.jobs, first.scheduler, 1, 2, "a", "b_c");
      && second.reply.Respond?
      && second.jobs == first.jobs
      && |second.jobs| == 1 && second.jobs[0].inputChannel == "a_b"
  {
    JobIdCollision();
    var first := CreateMessageJob(m, [], s, 1, 2, "a_b", "c");
    assert first.jobs[0].jobId == ComposeJobId(1, 2, "a", "b_c");
  }

  /**
    The handler the route defines inline: the same log / send / mark-read
    sequence as `handle_telegram_message`, on the request's session and with
    this module's own manager.
   */
  function InlineMessageHandler(messages: seq<Message>, m: AccountManager, inAccountId: int, outAccountId: int,
                                outputChannel: string, e: Event, sendOk: bool): (r: HandlerRun)
    ensures !r.closed
    ensures r.sent.Some? ==>
      outAccountId in m.clients && r.sent.value.text == e.text && r.sent.value.channel == outputChannel
    ensures InsertMessage(messages, LoggedMessage(inAccountId, e)).Err? ==>
      r.messages == messages && r.sent == None && r.raised
    ensures InsertMessage(messages, LoggedMessage(inAccountId, e)).Ok? ==>
      && (r.sent.Some? <==> outAccountId in m.clients)
      && (r.raised <==> outAccountId in m.clients && !sendOk)
      && r.messages == messages + [LoggedMessage(inAccountId, e).(read := !r.raised)]
    ensures r == HandleTelegramMessage(messages, m, inAccountId, outAccountId, outputChannel, e, sendOk).(closed := false)
  {
    LogAndForward(messages, m, inAccountId, outAccountId, outputChannel, e, sendOk)
  }

  /**
    The route consults the module-level manager built at import, and no code
    path starts a client on that instance: with its empty client map every
    request is answered 404 and nothing is stored or reloaded.
   */
  lemma ModuleManagerAlwaysNotFound(jobs: seq<MessageJob>, s: Scheduler, inAccountId: int,
                                    outAccountId: int, inputChannel: string, outputChannel: string)
    ensures var r := CreateMessageJob(NewManager(), jobs, s, inAccountId, outAccountId, inputChannel, outputChannel);
      r.reply.HttpError? && r.reply.code == NotFound && r.jobs == jobs && r.scheduler == s
  {
  }
}

=== FILE: app_models.dfy ===
/**
  `app/db/models.py`: the tables of the legacy `app` package. None of them
  has a delete path, so each is a sequence of rows in primary-key order and
  the row at index `i` has id `i + 1`. The `unique=True` columns are checked
  on insert, where the database raises an integrity error.
 */
module AppModels {
  import opened Wrappers

  datatype AppAccount = AppAccount(apiId: string, apiHash: string, phoneNumber: string)

  datatype Message = Message(accountId: int, messageId: string, content: string, read: bool)

  datatype MessageJob = MessageJob(
    jobId: string,
    inAccountId: int,
    outAccountId: int,
    inputChannel: string,
    outputChannel: string)

  /** `Message.read` defaults to False. */
  const DefaultRead := false

  const IntegrityError := "IntegrityError"

  /** Both `phone_number` and `api_id` are unique across accounts. */
  predicate UniqueAccounts(accounts: seq<AppAccount>) {
    forall i, j :: 0 <= i < j < |accounts| ==>
      accounts[i].phoneNumber != accounts[j].phoneNumber && accounts[i].apiId != accounts[j].apiId
  }

  /** `message_id` is unique across the whole table, whatever the account. */
  predicate UniqueMessageIds(messages: seq<Message>) {
    forall i, j :: 0 <= i < j < |messages| ==> messages[i].messageId != messages[j].messageId
  }

  predicate UniqueJobIds(jobs: seq<MessageJob>) {
    forall i, j :: 0 <= i < j < |jobs| ==> jobs[i].jobId != jobs[j].jobId
  }

  /** Some row other than `except` clashes with `a` on a unique column. */
  predicate ClashesWith(accounts: seq<AppAccount>, a: AppAccount, except: int) {
    exists i :: 0 <= i < |accounts| && i != except &&
      (accounts[i].phoneNumber == a.phoneNumber || accounts[i].apiId == a.apiId)
  }

  /** An account insert; the new row's id is the new length. */
  function InsertAccount(accounts: seq<AppAccount>, a: AppAccount): (r: Result<seq<AppAccount>, string>)
    ensures r.Err? <==> ClashesWith(accounts, a, -1)
    ensures r.Ok? ==> r.value == accounts + [a]
    ensures r.Ok? && UniqueAccounts(accounts) ==> UniqueAccounts(r.value)
  {
    if ClashesWith(accounts, a, -1) then Err(IntegrityError) else Ok(accounts + [a])
  }

  /** Overwrite row `i`, checking the unique columns against every other row. */
  function ReplaceAccount(accounts: seq<AppAccount>, i: nat, a: AppAccount): (r: Result<seq<AppAccount>, string>)
    requires i < |accounts|
    ensures r.Err? <==> ClashesWith(accounts, a, i)
    ensures r.Ok? ==> r.value == accounts[i := a]
    ensures r.Ok? && UniqueAccounts(accounts) ==> UniqueAccounts(r.value)
  {
    if ClashesWith(accounts, a, i) then Err(IntegrityError) else Ok(accounts[i := a])
  }

  function InsertMessage(messages: seq<Message>, m: Message): (r: Result<seq<Message>, string>)
    ensures r.Err? <==> exists i :: 0 <= i < |messages| && messages[i].messageId == m.messageId
    ensures r.Ok? ==> r.value == messages + [m]
    ensures r.Ok? && UniqueMessageIds(messages) ==> UniqueMessageIds(r.value)
  {
    if exists i :: 0 <= i < |messages| && messages[i].messageId == m.messageId then Err(IntegrityError)
    else Ok(messages + [m])
  }

  function InsertMessageJob(jobs: seq<MessageJob>, j: MessageJob): (r: Result<seq<MessageJob>, string>)
    ensures r.Err? <==> exists i :: 0 <= i < |jobs| && jobs[i].jobId == j.jobId
    ensures r.Ok? ==> r.value == jobs + [j]
    ensures r.Ok? && UniqueJobIds(jobs) ==> UniqueJobIds(r.value)
  {
    if exists i :: 0 <= i < |jobs| && jobs[i].jobId == j.jobId then Err(IntegrityError)
    else Ok(jobs + [j])
  }
}

=== FILE: app_scheduler.dfy ===
/**
  `app/core/scheduler.py` and the startup hook of `app/api/__init__.py`:
  the APScheduler instance as a running flag and its job store, keyed by job
  id. Both registration passes build a fresh, empty account manager and
  consult it for clients.
 */
module AppScheduler {
  import opened AppModels
  import opened AppClient

  /** The data the registered job function would use. */
  datatype ScheduledJob = ScheduledJob(inAccountId: int, outAccountId: int, inputChannel: string, outputChannel: string)

  /**
    APScheduler's two states. A stopped scheduler keeps its persisted job
    store and queues each `add_job` as pending; a running one writes
    straight into the store.
   */
  datatype Scheduler =
    | Stopped(jobs: map<string, ScheduledJob>, pending: map<string, ScheduledJob>)
    | Running(jobs: map<string, ScheduledJob>)

  /** Where `add_job` and `remove_all_jobs` act: the pending queue while stopped, the store while running. */
  function Queue(s: Scheduler): map<string, ScheduledJob> {
    if s.Running? then s.jobs else s.pending
  }

  function WithQueue(s: Scheduler, q: map<string, ScheduledJob>): (s': Scheduler)
    ensures s'.Running? == s.Running? && Queue(s') == q
    ensures s.Stopped? ==> s'.jobs == s.jobs
  {
    if s.Running? then Running(q) else s.(pending := q)
  }

  /** `remove_all_jobs()`: a running scheduler empties its store; a stopped one only drops its pending jobs. */
  function RemoveAllJobs(s: Scheduler): (s': Scheduler)
    ensures s'.Running? == s.Running? && Queue(s') == map[]
    ensures s.Stopped? ==> s'.jobs == s.jobs
  {
    WithQueue(s, map[])
  }

  /**
    `start()`, guarded by `running`: the pending jobs are added to the store
    with `replace_existing`, so a pending job wins over a stored one with
    the same id.
   */
  function StartScheduler(s: Scheduler): (s': Scheduler)
    ensures s'.Running?
    ensures s'.jobs.Keys == s.jobs.Keys + Queue(s).Keys
    ensures forall id :: id in Queue(s) ==> s'.jobs[id] == Queue(s)[id]
    ensures forall id :: id in s.jobs && id !in Queue(s) ==> s'.jobs[id] == s.jobs[id]
  {
    match s
    case Stopped(jobs, pending) => Running(jobs + pending)
    case Running(_) => s
  }

  /** Starting twice is starting once. */
  lemma StartSchedulerIdempotent(s: Scheduler)
    ensures StartScheduler(StartScheduler(s)) == StartScheduler(s)
  {
  }

  /** `shutdown()`, guarded by `running`: the store is kept and nothing is pending. */
  function ShutdownScheduler(s: Scheduler): (s': Scheduler)
    ensures s'.Stopped? && s'.jobs == s.jobs
    ensures s.Running? ==> s'.pending == map[]
    ensures s.Stopped? ==> s' == s
  {
    match s
    case Running(jobs) => Stopped(jobs, map[])
    case Stopped(_, _) => s
  }

  /** Stopping a running scheduler and starting it again gives it back unchanged. */
  lemma RestartKeepsScheduler(s: Scheduler)
    requires s.Running?
    ensures StartScheduler(ShutdownScheduler(s)) == s
  {
    assert s.jobs + map[] == s.jobs;
  }

  function ToScheduled(j: MessageJob): ScheduledJob {
    ScheduledJob(j.inAccountId, j.outAccountId, j.inputChannel, j.outputChannel)
  }

  /** The job ids a registration pass adds: those whose input account has a client. */
  function WithClient(m: AccountManager, jobs: seq<MessageJob>): set<string> {
    set i | 0 <= i < |jobs| && jobs[i].inAccountId in m.clients :: jobs[i].jobId
  }

  /** `q` holds, under `id`, the data of a row with that id whose input account has a client. */
  predicate HoldsRowOf(q: map<string, ScheduledJob>, m: AccountManager, jobs: seq<MessageJob>, id: string) {
    && id in q
    && exists i :: 0 <= i < |jobs| && jobs[i].jobId == id && jobs[i].inAccountId in m.clients
                   && q[id] == ToScheduled(jobs[i])
  }

  /**
    The loop of both passes over the map `add_job` writes to:
    `add_job(..., id=job.job_id, replace_existing=True)` for each row whose
    input account has a client, so a job id is held at most once and a later
    row replaces an earlier one.
   */
  function AddJobs(q: map<string, ScheduledJob>, m: AccountManager, jobs: seq<MessageJob>): (q': map<string, ScheduledJob>)
    ensures q'.Keys == q.Keys + WithClient(m, jobs)
    ensures forall id :: id in q && id !in WithClient(m, jobs) ==> q'[id] == q[id]
    ensures forall id :: id in WithClient(m, jobs) ==> HoldsRowOf(q', m, jobs, id)
    decreases |jobs|
  {
    if |jobs| == 0 then q
    else
      var j := jobs[0];
      var next := if j.inAccountId in m.clients then q[j.jobId := ToScheduled(j)] else q;
      var r := AddJobs(next, m, jobs[1..]);
      WithClientCons(m, jobs);
      forall id | id in WithClient(m, jobs)
        ensures HoldsRowOf(r, m, jobs, id)
      {
        if id in WithClient(m, jobs[1..]) {
          HoldsRowShift(r, m, jobs, id);
        } else {
          assert jobs[0].jobId == id && r[id] == ToScheduled(jobs[0]);
        }
      }
      r
  }

  /**
    The registration loop on the scheduler: while it is stopped the jobs go
    to the pending queue and the store is untouched; while it runs they go
    into the store.
   */
  function RegisterJobs(s: Scheduler, m: AccountManager, jobs: seq<MessageJob>): (s': Scheduler)
    ensures s'.Running? == s.Running?
    ensures s.Stopped? ==> s'.jobs == s.jobs
    ensures Queue(s').Keys == Queue(s).Keys + WithClient(m, jobs)
    ensures forall id :: id in Queue(s) && id !in WithClient(m, jobs) ==> Queue(s')[id] == Queue(s)[id]
    ensures forall id :: id in WithClient(m, jobs) ==> HoldsRowOf(Queue(s'), m, jobs, id)
  {
    WithQueue(s, AddJobs(Queue(s), m, jobs))
  }

  lemma HoldsRowShift(q: map<string, ScheduledJob>, m: AccountManager, jobs: seq<MessageJob>, id: string)
    requires |jobs| > 0 && HoldsRowOf(q, m, jobs[1..], id)
    ensures HoldsRowOf(q, m, jobs, id)
  {
    var i :| 0 <= i < |jobs[1..]| && jobs[1..][i].jobId == id && jobs[1..][i].inAccountId in m.clients
             && q[id] == ToScheduled(jobs[1..][i]);
    assert jobs[i + 1] == jobs[1..][i];
  }

  lemma WithClientCons(m: AccountManager, jobs: seq<MessageJob>)
    requires |jobs| > 0
    ensures WithClient(m, jobs)
              == (if jobs[0].inAccountId in m.clients then {jobs[0].jobId} else {}) + WithClient(m, jobs[1..])
  {
    var head := if jobs[0].inAccountId in m.clients then {jobs[0].jobId} else {};
    forall id | id in WithClient(m, jobs)
      ensures id in head + WithClient(m, jobs[1..])
    {
      var i :| 0 <= i < |jobs| && jobs[i].inAccountId in m.clients && jobs[i].jobId == id;
      if i > 0 { assert jobs[1..][i - 1] == jobs[i]; }
    }
    forall id | id in WithClient(m, jobs[1..])
      ensures id in WithClient(m, jobs)
    {
      var i :| 0 <= i < |jobs[1..]| && jobs[1..][i].inAccountId in m.clients && jobs[1..][i].jobId == id;
      assert jobs[i + 1] == jobs[1..][i];
    }
  }

  /**
    `reload_jobs` for a given manager: `remove_all_jobs`, register, start.
    On a running scheduler every previous job is dropped; on a stopped one
    only the pending jobs are, and the persisted store survives into the
    started scheduler.
   */
  function ReloadJobsWith(s: Scheduler, m: AccountManager, jobs: seq<MessageJob>): (s': Scheduler)
    ensures s'.Running?
    ensures s'.jobs.Keys == (if s.Running? then {} else s.jobs.Keys) + WithClient(m, jobs)
    ensures forall id :: id in WithClient(m, jobs) ==> HoldsRowOf(s'.jobs, m, jobs, id)
    ensures s.Stopped? ==> forall id :: id in s.jobs && id !in WithClient(m, jobs) ==> s'.jobs[id] == s.jobs[id]
  {
    StartScheduler(RegisterJobs(RemoveAllJobs(s), m, jobs))
  }

  /**
    `reload_jobs`: the manager it builds has no clients, so nothing is
    registered. A running scheduler ends empty; a stopped one is started
    with its persisted store.
   */
  function ReloadJobs(s: Scheduler, jobs: seq<MessageJob>): (s': Scheduler)
    ensures s' == Running(if s.Running? then map[] else s.jobs)
  {
    var r := ReloadJobsWith(s, NewManager(), jobs);
    assert WithClient(NewManager(), jobs) == {};
    r
  }

  /** `load_saved_jobs` for a given manager: register without clearing, then start. */
  function LoadSavedJobsWith(s: Scheduler, m: AccountManager, jobs: seq<MessageJob>): (s': Scheduler)
    ensures s'.Running?
    ensures s'.jobs.Keys == s.jobs.Keys + Queue(s).Keys + WithClient(m, jobs)
    ensures forall id :: id in WithClient(m, jobs) ==> HoldsRowOf(s'.jobs, m, jobs, id)
    ensures forall id :: id in Queue(s) && id !in WithClient(m, jobs) ==> s'.jobs[id] == Queue(s)[id]
    ensures forall id :: id in s.jobs && id !in Queue(s) && id !in WithClient(m, jobs) ==> s'.jobs[id] == s.jobs[id]
  {
    StartScheduler(RegisterJobs(s, m, jobs))
  }

  /** `load_saved_jobs`: with a fresh manager nothing is registered, and startup is only a start. */
  function LoadSavedJobs(s: Scheduler, jobs: seq<MessageJob>): (s': Scheduler)
    ensures s' == StartScheduler(s)
  {
    var r := LoadSavedJobsWith(s, NewManager(), jobs);
    assert WithClient(NewManager(), jobs) == {};
    r
  }
}

=== FILE: commit_retry.dfy ===
/**
  `commit_with_retry`: up to `retries` guarded commits, each retried after an
  exponentially growing sleep when the error text mentions a locked database,
  then one unguarded commit whose error reaches the caller.

  The database is an environment `env`: `env(k)` is what the k-th commit call
  (counting from 0) does. Sleeps are whole milliseconds.
 */
module CommitRetry {
  import opened Wrappers
  import opened Text

  datatype CommitOutcome = Committed | CommitError(message: string)

  /** What one call observably did. */
  datatype CommitRun = CommitRun(
    attempts: nat,           // number of `db.commit()` calls
    delays: seq<nat>,        // the sleeps, in order
    raised: Option<string>)  // the error that propagated, if any

  const DefaultRetries := 5
  /** 0.1 seconds. */
  const DefaultBaseDelayMs := 100
  const LockedMarker := "database is locked"

  /** `"database is locked" in str(e).lower()`. */
  predicate IsLockedMessage(message: string) {
    Contains(Lower(message), LockedMarker)
  }

  predicate IsLockedError(o: CommitOutcome) {
    o.CommitError? && IsLockedMessage(o.message)
  }

  /** `range(retries)` is empty for a negative count. */
  function Guarded(retries: int): nat {
    if retries > 0 then retries else 0
  }

  function Pow2(k: nat): (p: nat)
    ensures p >= 1
  {
    if k == 0 then 1 else 2 * Pow2(k - 1)
  }

  function Sum(xs: seq<nat>): nat {
    if |xs| == 0 then 0 else xs[0] + Sum(xs[1..])
  }

  /**
    The loop from iteration `k` on. Every commit before the last one hit a
    locked database and slept `base * 2^i` before the next; the last one
    decides the result.
   */
  function CommitFrom(k: nat, retries: int, base: nat, env: nat -> CommitOutcome): (r: CommitRun)
    requires k <= Guarded(retries)
    ensures k < r.attempts <= Guarded(retries) + 1
    ensures |r.delays| == r.attempts - 1 - k
    ensures forall i :: 0 <= i < |r.delays| ==> r.delays[i] == base * Pow2(k + i)
    ensures forall i :: k <= i < r.attempts - 1 ==> IsLockedError(env(i))
    ensures r.raised == None <==> env(r.attempts - 1) == Committed
    ensures r.raised.Some? ==> env(r.attempts - 1) == CommitError(r.raised.value)
    ensures r.attempts - 1 < Guarded(retries) ==> !IsLockedError(env(r.attempts - 1))
    decreases Guarded(retries) - k
  {
    if k < Guarded(retries) then
      match env(k)
      case Committed => CommitRun(k + 1, [], None)
      case CommitError(message) =>
        if IsLockedMessage(message) then
          var rest := CommitFrom(k + 1, retries, base, env);
          CommitRun(rest.attempts, [base * Pow2(k)] + rest.delays, rest.raised)
        else
          CommitRun(k + 1, [], Some(message))
    else
      match env(k)
      case Committed => CommitRun(k + 1, [], None)
      case CommitError(message) => CommitRun(k + 1, [], Some(message))
  }

  function CommitWithRetry(retries: int, base: nat, env: nat -> CommitOutcome): (r: CommitRun)
    ensures 1 <= r.attempts <= Guarded(retries) + 1
    ensures |r.delays| == r.attempts - 1
    ensures forall i :: 0 <= i < |r.delays| ==> r.delays[i] == base * Pow2(i)
    ensures forall i :: 0 <= i < r.attempts - 1 ==> IsLockedError(env(i))
    ensures r.raised == None <==> env(r.attempts - 1) == Committed
    ensures r.raised.Some? ==> env(r.attempts - 1) == CommitError(r.raised.value)
    ensures r.attempts - 1 < Guarded(retries) ==> !IsLockedError(env(r.attempts - 1))
  {
    CommitFrom(0, retries, base, env)
  }

  /** The first successful commit ends the call: nothing after it runs. */
  lemma FirstSuccessReturns(retries: int, base: nat, env: nat -> CommitOutcome, j: nat)
    requires j <= Guarded(retries)
    requires env(j) == Committed
    requires forall i :: 0 <= i < j ==> IsLockedError(env(i))
    ensures CommitWithRetry(retries, base, env).attempts == j + 1
    ensures CommitWithRetry(retries, base, env).raised == None
  {
  }

  /** An error that does not mention a locked database propagates at once, unslept. */
  lemma OtherErrorPropagates(retries: int, base: nat, env: nat -> CommitOutcome, j: nat)
    requires j < Guarded(retries)
    requires env(j).CommitError? && !IsLockedMessage(env(j).message)
    requires forall i :: 0 <= i < j ==> IsLockedError(env(i))
    ensures CommitWithRetry(retries, base, env) == CommitRun(j + 1, Delays(base, j), Some(env(j).message))
  {
    var r := CommitWithRetry(retries, base, env);
    assert r.delays == Delays(base, j);
  }

  /** The schedule `base * 2^k, ..., base * 2^(k+n-1)`. */
  function DelaysFrom(base: nat, k: nat, n: nat): (d: seq<nat>)
    ensures |d| == n
    ensures forall i :: 0 <= i < n ==> d[i] == base * Pow2(k + i)
    decreases n
  {
    if n == 0 then [] else [base * Pow2(k)] + DelaysFrom(base, k + 1, n - 1)
  }

  function Delays(base: nat, n: nat): seq<nat> {
    DelaysFrom(base, 0, n)
  }

  /** When every guarded commit hits the lock, exactly one unguarded commit follows and decides. */
  lemma AllLockedThenFinalCommit(retries: int, base: nat, env: nat -> CommitOutcome)
    requires forall i :: 0 <= i < Guarded(retries) ==> IsLockedError(env(i))
    ensures CommitWithRetry(retries, base, env).attempts == Guarded(retries) + 1
    ensures CommitWithRetry(retries, base, env).delays == Delays(base, Guarded(retries))
    ensures CommitWithRetry(retries, base, env).raised ==
              (if env(Guarded(retries)).Committed? then None else Some(env(Guarded(retries)).message))
  {
  }

  /** With no guarded attempts there is exactly one commit, unguarded. */
  lemma NoRetriesSingleCommit(retries: int, base: nat, env: nat -> CommitOutcome)
    requires retries <= 0
    ensures CommitWithRetry(retries, base, env).attempts == 1
    ensures CommitWithRetry(retries, base, env).delays == []
  {
  }

  lemma {:induction false} SumSuffixDelays(base: nat, k: nat, n: nat)
    ensures Sum(DelaysFrom(base, k, n)) == base * Pow2(k + n) - base * Pow2(k)
    decreases n
  {
    if n > 0 {
      var d := DelaysFrom(base, k, n);
      var tail := DelaysFrom(base, k + 1, n - 1);
      assert d[1..] == tail;
      assert Sum(d) == base * Pow2(k) + Sum(tail);
      SumSuffixDelays(base, k + 1, n - 1);
      ScaleDouble(base, k);
    }
  }

  /** Each sleep is twice the one before it. */
  lemma DelaysDouble(retries: int, base: nat, env: nat -> CommitOutcome)
    ensures forall i :: 0 < i < |CommitWithRetry(retries, base, env).delays| ==>
      CommitWithRetry(retries, base, env).delays[i] == 2 * CommitWithRetry(retries, base, env).delays[i - 1]
  {
    var r := CommitWithRetry(retries, base, env);
    forall i | 0 < i < |r.delays|
      ensures r.delays[i] == 2 * r.delays[i - 1]
    {
      ScaleDouble(base, i - 1);
    }
  }

  lemma ScaleDouble(base: nat, k: nat)
    ensures base * Pow2(k + 1) == 2 * (base * Pow2(k))
  {
    assert Pow2(k + 1) == 2 * Pow2(k);
  }

  /** All sleeps of one call add up to `base * (2^(attempts-1) - 1)`, at most `base * (2^retries - 1)`. */
  lemma TotalDelayBounded(retries: int, base: nat, env: nat -> CommitOutcome)
    ensures Sum(CommitWithRetry(retries, base, env).delays)
              == base * Pow2(CommitWithRetry(retries, base, env).attempts - 1) - base
    ensures Sum(CommitWithRetry(retries, base, env).delays) <= base * Pow2(Guarded(retries)) - base
  {
    var r := CommitWithRetry(retries, base, env);
    var n := r.attempts - 1;
    RunDelays(retries, base, env);
    SumDelays(base, n);
    Pow2Monotone(n, Guarded(retries));
    MultiplyMonotone(base, Pow2(n), Pow2(Guarded(retries)));
  }

  lemma RunDelays(retries: int, base: nat, env: nat -> CommitOutcome)
    ensures CommitWithRetry(retries, base, env).delays
              == Delays(base, CommitWithRetry(retries, base, env).attempts - 1)
  {
  }

  lemma SumDelays(base: nat, n: nat)
    ensures Sum(Delays(base, n)) == base * Pow2(n) - base
  {
    SumSuffixDelays(base, 0, n);
    assert Pow2(0) == 1;
  }

  lemma {:induction false} Pow2Monotone(a: nat, b: nat)
    requires a <= b
    ensures Pow2(a) <= Pow2(b)
    decreases b
  {
    if a < b {
      Pow2Monotone(a, b - 1);
    }
  }

  lemma MultiplyMonotone(c: nat, a: nat, b: nat)
    requires a <= b
    ensures c * a <= c * b
  {
  }
}

=== FILE: http.dfy ===
/** HTTP replies of the route handlers: a body, or an `HTTPException`. */
module Http {
  datatype Reply<T> = Respond(body: T) | HttpError(code: int, detail: string)

  const BadRequest := 400
  const Forbidden := 403
  const NotFound := 404
  const InternalServerError := 500

  /** The body FastAPI sends for an exception no handler catches. */
  const Unhandled := "Internal Server Error"
}

=== FILE: job_router.dfy ===
/**
  `telegram_manager/routers/telegram_job_manager.py`: the job endpoints as
  functions from the job table to an HTTP reply. Runners started through
  FastAPI background tasks or bare `asyncio.create_task` are reported as
  `RunnerStart` events; they are never added to the tracked task registry.
 */
module JobRouter {
  import opened Wrappers
  import opened Text
  import opened TmModels
  import opened JobRunner
  import opened Http

  /** `JobResponse`: every field, `status` included, is declared `int`. */
  datatype JobResponse = JobResponse(
    id: nat,
    sourceAccountId: string,
    sourceChannel: int,
    destAccountId: string,
    destChannel: int,
    jobType: int,
    status: int)

  /**
    The check of a stored status against the `int` field. A status written
    through the enum is its integer value. The text "stopped" that
    `stop_job_in_db` writes fails `int()`, a ValidationError. SQLite stores a
    digit string in an INTEGER column as a number, so a raw status is never
    numeric text.
   */
  function StatusAsInt(st: StoredStatus): (r: Option<int>)
    ensures r.Some? <==> st.Enum?
    ensures r.Some? ==> StatusFromCode(r.value) == Some(st.status)
  {
    match st
    case Enum(e) => Some(StatusCode(e))
    case Raw(_) => None
  }

  /** `JobResponse.from_orm(job)`: `None` when the stored status fails validation. */
  function FromOrm(id: nat, j: Job): (r: Option<JobResponse>)
    ensures r.Some? <==> j.status.Enum?
    ensures r.Some? ==>
      && r.value.id == id && r.value.jobType == j.jobType
      && r.value.sourceAccountId == j.sourceAccountId && r.value.sourceChannel == j.sourceChannel
      && r.value.destAccountId == j.destAccountId && r.value.destChannel == j.destChannel
      && StatusFromCode(r.value.status) == Some(j.status.status)
  {
    match StatusAsInt(j.status)
    case Some(code) => Some(JobResponse(id, j.sourceAccountId, j.sourceChannel, j.destAccountId, j.destChannel, j.jobType, code))
    case None => None
  }

  /** An untracked runner launch. */
  datatype RunnerStart = RunnerStart(jobId: nat, runner: Runner)

  datatype CreateReply = CreateReply(store: JobStore, reply: Reply<JobResponse>, started: Option<RunnerStart>)

  /**
    `POST /` as written: the row is written first, and an invalid type is
    rejected only afterwards, so the row stays. For a valid type the response
    reads `status_int`, which the job record does not define: AttributeError,
    a 500, and the background runner is dropped with the failed response.
   */
  function CreateJobAsWritten(s: JobStore, req: JobCreate): (r: CreateReply)
    requires ValidStore(s)
    ensures r.store == CreateJobInDb(s, req).0
    ensures r.started == None
    ensures JobTypeFromCode(req.jobType) == None ==> r.reply == HttpError(BadRequest, "Invalid job type")
    ensures JobTypeFromCode(req.jobType).Some? ==> r.reply == HttpError(InternalServerError, Unhandled)
  {
    var (s', id) := CreateJobInDb(s, req);
    match RunnerFor(s'.jobs[id].jobType)
    case Some(runner) => CreateReply(s', HttpError(InternalServerError, Unhandled), None)
    case None => CreateReply(s', HttpError(BadRequest, "Invalid job type"), None)
  }

  /**
    `POST /` with `status_int` read as the stored integer status: a valid
    type answers with the new pending row and starts its runner.
   */
  function CreateJob(s: JobStore, req: JobCreate): (r: CreateReply)
    requires ValidStore(s)
    ensures var (s', id) := CreateJobInDb(s, req);
      && r.store == s'
      && (r.reply.HttpError? <==> JobTypeFromCode(req.jobType) == None)
      && (r.reply.HttpError? ==> r.reply.code == BadRequest && r.started == None)
      && (r.reply.Respond? ==>
            r.reply.body.id == id && StatusFromCode(r.reply.body.status) == Some(Pending)
            && r.started == Some(RunnerStart(id, RunnerFor(req.jobType).value)))
  {
    var (s', id) := CreateJobInDb(s, req);
    match RunnerFor(s'.jobs[id].jobType)
    case Some(runner) => CreateReply(s', Respond(FromOrm(id, s'.jobs[id]).value), Some(RunnerStart(id, runner)))
    case None => CreateReply(s', HttpError(BadRequest, "Invalid job type"), None)
  }

  /** An invalid type is answered with 400 but the row is persisted anyway. */
  lemma InvalidTypeStillPersisted(s: JobStore, req: JobCreate)
    requires ValidStore(s)
    requires req.jobType != 0 && req.jobType != 1
    ensures CreateJob(s, req).reply == HttpError(BadRequest, "Invalid job type")
    ensures |CreateJob(s, req).store.jobs| == |s.jobs| + 1
    ensures s.nextId in CreateJob(s, req).store.jobs
  {
    CreateAddsOneJob(s, req);
  }

  /** As written, a valid request stores its row but is answered 500 and starts no runner. */
  lemma ValidCreateFailsAsWritten(s: JobStore, req: JobCreate)
    requires ValidStore(s) && (req.jobType == 0 || req.jobType == 1)
    ensures CreateJobAsWritten(s, req).reply == HttpError(InternalServerError, Unhandled)
    ensures CreateJobAsWritten(s, req).started == None
    ensures CreateJobAsWritten(s, req).store == CreateJob(s, req).store
    ensures CreateJob(s, req).reply.Respond? && CreateJob(s, req).started.Some?
  {
  }

  /** Some row holds a raw status, which no response can carry. */
  predicate HasRawStatus(s: JobStore) {
    exists id :: id in s.jobs && s.jobs[id].status.Raw?
  }

  /**
    `GET /` as written: with no rows the list is empty; the first row's
    response fails, on the status check or on the missing `status_int`.
   */
  function GetJobsAsWritten(s: JobStore): (r: Reply<map<nat, JobResponse>>)
    ensures r.Respond? <==> s.jobs == map[]
    ensures r.Respond? ==> r.body == map[]
    ensures r.HttpError? ==> r == HttpError(InternalServerError, Unhandled)
  {
    if s.jobs == map[] then Respond(map[]) else HttpError(InternalServerError, Unhandled)
  }

  /**
    `GET /` with `status_int` read as the stored integer status: one response
    per row, unless some row was stopped through the service, whose text
    status fails validation and turns the whole list into a 500.
   */
  function GetJobs(s: JobStore): (r: Reply<map<nat, JobResponse>>)
    ensures r.HttpError? <==> HasRawStatus(s)
    ensures r.HttpError? ==> r == HttpError(InternalServerError, Unhandled)
    ensures r.Respond? ==> r.body.Keys == s.jobs.Keys
    ensures r.Respond? ==> forall id :: id in r.body ==> Some(r.body[id]) == FromOrm(id, s.jobs[id])
  {
    if HasRawStatus(s) then HttpError(InternalServerError, Unhandled)
    else Respond(map id | id in s.jobs :: FromOrm(id, s.jobs[id]).value)
  }

  /** `GET /{job_id}` as written: 404 for a missing id, and 500 for every present one. */
  function GetJobAsWritten(s: JobStore, id: int): (r: Reply<JobResponse>)
    ensures r.HttpError?
    ensures id !in s.jobs ==> r == HttpError(NotFound, NotFoundMessage(id))
    ensures id in s.jobs ==> r == HttpError(InternalServerError, Unhandled)
  {
    if id !in s.jobs then HttpError(NotFound, NotFoundMessage(id)) else HttpError(InternalServerError, Unhandled)
  }

  /**
    `GET /{job_id}` with `status_int` read as the stored integer status: 404
    for a missing id, 500 for a row stopped through the service, otherwise
    the row's response.
   */
  function GetJob(s: JobStore, id: int): (r: Reply<JobResponse>)
    ensures r.HttpError? <==> id !in s.jobs || s.jobs[id].status.Raw?
    ensures id !in s.jobs ==> r == HttpError(NotFound, NotFoundMessage(id))
    ensures id in s.jobs && s.jobs[id].status.Raw? ==> r == HttpError(InternalServerError, Unhandled)
    ensures r.Respond? ==> Some(r.body) == FromOrm(id, s.jobs[id])
  {
    if id !in s.jobs then HttpError(NotFound, NotFoundMessage(id))
    else match FromOrm(id, s.jobs[id])
      case Some(body) => Respond(body)
      case None => HttpError(InternalServerError, Unhandled)
  }

  /** Whenever the list answers, each single-row read answers with the same response. */
  lemma GetJobAgreesWithList(s: JobStore, id: int)
    requires GetJobs(s).Respond? && id in s.jobs
    ensures GetJob(s, id) == Respond(GetJobs(s).body[id])
  {
  }

  /** A job stopped through the service can no longer be read: `GET /{id}` and `GET /` both answer 500. */
  lemma StopThenGetFails(s: JobStore, id: int)
    requires id in s.jobs
    ensures GetJob(StopJob(s, id).0, id) == HttpError(InternalServerError, Unhandled)
    ensures GetJobs(StopJob(s, id).0) == HttpError(InternalServerError, Unhandled)
  {
    var s' := StopJob(s, id).0;
    assert id in s'.jobs && s'.jobs[id].status.Raw?;
  }

  /** As written, no present row can be read, where the corrected read answers for every enum status. */
  lemma GetJobFailsAsWritten(s: JobStore, id: int)
    requires id in s.jobs && s.jobs[id].status.Enum?
    ensures GetJobAsWritten(s, id) == HttpError(InternalServerError, Unhandled)
    ensures GetJob(s, id).Respond?
  {
  }

  /** `GET /health`. */
  function Health(): string {
    HealthCheck()
  }

  /** `GET /health/{job_id}`: the error dict of the service becomes 404. */
  function HealthJob(s: JobStore, id: int): (r: Reply<HealthReport>)
    ensures r.HttpError? <==> id !in s.jobs
    ensures r.HttpError? ==> r.code == NotFound && r.detail == NotFoundMessage(id)
    ensures r.Respond? ==> r.body == JobHealth(id, s.jobs[id].status)
  {
    match HealthCheckJob(s, id)
    case HealthError(e) => HttpError(NotFound, e)
    case report => Respond(report)
  }

  /** `DELETE /{job_id}`: ValueError becomes 404; success has no body (204). */
  function DeleteJob(s: JobStore, id: int): (r: (JobStore, Reply<()>))
    ensures r.1.HttpError? <==> id !in s.jobs
    ensures r.1.HttpError? ==> r.1.code == NotFound && r.0 == s
    ensures r.1.Respond? ==> r.0.jobs == s.jobs - {id}
  {
    match DeleteJobInDb(s, id)
    case Err(e) => (s, HttpError(NotFound, e))
    case Ok(s') => (s', Respond(()))
  }

  /** `POST /stop/{job_id}`: ValueError becomes 404. */
  function StopJob(s: JobStore, id: int): (r: (JobStore, Reply<string>))
    ensures r.1.HttpError? <==> id !in s.jobs
    ensures r.1.HttpError? ==> r.1.code == NotFound && r.0 == s
    ensures r.1.Respond? ==> r.0.jobs == s.jobs[id := s.jobs[id].(status := Raw(StoppedText))]
    ensures r.1.Respond? ==> r.1.body == "Job " + IntToString(id) + " stopped successfully"
  {
    match StopJobInDb(s, id)
    case Err(e) => (s, HttpError(NotFound, e))
    case Ok(s') => (s', Respond("Job " + IntToString(id) + " stopped successfully"))
  }

  datatype ReloadAllReply = ReloadAllReply(store: JobStore, registry: TaskRegistry, message: string)

  /**
    `POST /reload_all`: spawns the reload as a separate task and answers at
    once; when the reply is produced nothing has been reloaded yet.
   */
  function ReloadAll(s: JobStore, reg: TaskRegistry): (r: ReloadAllReply)
    ensures r.store == s && r.registry == reg
  {
    ReloadAllReply(s, reg, "All jobs reloaded and scheduled successfully")
  }

  /**
    The task `POST /reload_all` spawns, once it runs on the state the reply
    left: every live task is cancelled and exactly the runnable rows are
    tracked, with the table unchanged.
   */
  method RunSpawnedReload(r: ReloadAllReply) returns (l: LoadResult)
    requires ValidRegistry(r.registry)
    ensures l.store == r.store
    ensures forall h :: h in r.registry.tasks ==> (h in l.cancelled <==> !r.registry.tasks[h].done)
    ensures ValidRegistry(l.registry) && TracksExactly(l.registry, r.store)
    ensures |l.registry.tasks| == |RunnableJobs(r.store)|
    ensures l.rejected == EligibleJobs(r.store) - RunnableJobs(r.store)
  {
    l := ReloadAndScheduleAllJobs(r.store, r.registry);
  }

  /**
    The route followed by its spawned task, with nothing in between: the
    reply leaves everything as it was, and the reload then reaches the state
    the service promises for the request's table and registry.
   */
  method ReloadAllThenSpawned(s: JobStore, reg: TaskRegistry) returns (reply: ReloadAllReply, l: LoadResult)
    requires ValidRegistry(reg)
    ensures reply.store == s && reply.registry == reg
    ensures l.store == s
    ensures forall h :: h in reg.tasks ==> (h in l.cancelled <==> !reg.tasks[h].done)
    ensures TracksExactly(l.registry, s) && |l.registry.tasks| == |RunnableJobs(s)|
  {
    reply := ReloadAll(s, reg);
    l := RunSpawnedReload(reply);
  }

  /** `POST /run/{job_id}`: launches the runner untracked, and never touches the row. */
  function RunJobDirectly(s: JobStore, id: int): (r: (Reply<string>, Option<RunnerStart>))
    ensures r.0.HttpError? <==> id !in s.jobs || JobTypeFromCode(s.jobs[id].jobType) == None
    ensures id !in s.jobs ==> r.0.code == NotFound
    ensures id in s.jobs && JobTypeFromCode(s.jobs[id].jobType) == None ==> r.0.code == BadRequest
    ensures r.1.Some? <==> r.0.Respond?
    ensures r.1.Some? ==> r.1.value == RunnerStart(id, RunnerFor(s.jobs[id].jobType).value)
  {
    if id !in s.jobs then (HttpError(NotFound, NotFoundMessage(id)), None)
    else match RunnerFor(s.jobs[id].jobType)
      case Some(runner) => (Respond("Job " + IntToString(id) + " started directly"), Some(RunnerStart(id, runner)))
      case None => (HttpError(BadRequest, "Invalid job type"), None)
  }
}

=== FILE: job_runner.dfy ===
/**
  `telegram_manager/services/job_runner.py`: the job table, the registry of
  tracked runner tasks (`running_job_tasks`) and the load/reload step.

  The runners themselves sleep and return, so a task is only its job id,
  which runner it runs and whether it has finished. Tasks are named by
  handles drawn from a counter, standing in for the distinct task objects.
 */
module JobRunner {
  import opened Wrappers
  import opened Text
  import opened TmModels

  /** The job table: rows by primary key, plus the next key the database hands out. */
  datatype JobStore = JobStore(jobs: map<nat, Job>, nextId: nat)

  predicate ValidStore(s: JobStore) {
    && s.nextId > 0
    && forall id :: id in s.jobs ==> 0 < id < s.nextId
  }

  function EmptyStore(): (s: JobStore)
    ensures ValidStore(s) && s.jobs == map[]
  {
    JobStore(map[], 1)
  }

  datatype Runner = FullRunner | ReadtimeRunner

  datatype Task = Task(jobId: nat, runner: Runner, done: bool)

  /** `running_job_tasks`, plus the next fresh task handle. */
  datatype TaskRegistry = TaskRegistry(tasks: map<nat, Task>, nextHandle: nat)

  predicate ValidRegistry(r: TaskRegistry) {
    forall h :: h in r.tasks ==> h < r.nextHandle
  }

  function NotFoundMessage(id: int): string {
    "Job with id " + IntToString(id) + " not found"
  }

  /** `create_job_in_db`: one new row holding the request's fields, status pending. */
  function CreateJobInDb(s: JobStore, req: JobCreate): (r: (JobStore, nat))
    requires ValidStore(s)
    ensures var (s', id) := r;
      && ValidStore(s')
      && id !in s.jobs && s'.jobs.Keys == s.jobs.Keys + {id}
      && (forall k :: k in s.jobs ==> s'.jobs[k] == s.jobs[k])
      && s'.jobs[id].sourceAccountId == req.sourceAccountId
      && s'.jobs[id].sourceChannel == req.sourceChannel
      && s'.jobs[id].destAccountId == req.destAccountId
      && s'.jobs[id].destChannel == req.destChannel
      && s'.jobs[id].jobType == req.jobType
      && s'.jobs[id].status == Enum(Pending)
  {
    var id := s.nextId;
    (JobStore(s.jobs[id := NewJob(req)], id + 1), id)
  }

  /** A created job adds exactly one row. */
  lemma CreateAddsOneJob(s: JobStore, req: JobCreate)
    requires ValidStore(s)
    ensures |CreateJobInDb(s, req).0.jobs| == |s.jobs| + 1
  {
    var (s', id) := CreateJobInDb(s, req);
    assert s'.jobs.Keys == s.jobs.Keys + {id};
  }

  /** Which runner a job type selects, if any. */
  function RunnerFor(jobType: int): (r: Option<Runner>)
    ensures r == Some(FullRunner) <==> jobType == JobTypeCode(Full)
    ensures r == Some(ReadtimeRunner) <==> jobType == JobTypeCode(Readtime)
    ensures r == None <==> JobTypeFromCode(jobType) == None
  {
    if jobType == 0 then Some(FullRunner)
    else if jobType == 1 then Some(ReadtimeRunner)
    else None
  }

  /**
    `schedule_job` up to its `await`: spawn the runner the job type selects
    and track it, or raise ValueError. It reads the job but never writes it.
   */
  function ScheduleJob(reg: TaskRegistry, id: nat, job: Job): (r: Result<(TaskRegistry, nat), string>)
    requires ValidRegistry(reg)
    ensures r.Err? <==> JobTypeFromCode(job.jobType) == None
    ensures r.Err? ==> r.error == "Invalid job_type"
    ensures r.Ok? ==> var (reg', h) := r.value;
      && ValidRegistry(reg')
      && h == reg.nextHandle && h !in reg.tasks
      && reg' == TaskRegistry(reg.tasks[h := Task(id, RunnerFor(job.jobType).value, false)], h + 1)
  {
    match RunnerFor(job.jobType)
    case None => Err("Invalid job_type")
    case Some(runner) =>
      var h := reg.nextHandle;
      Ok((TaskRegistry(reg.tasks[h := Task(id, runner, false)], h + 1), h))
  }

  /** The runner of task `h` returns (or is cancelled): the task is done. */
  function FinishTask(reg: TaskRegistry, h: nat): (reg': TaskRegistry)
    ensures reg'.tasks.Keys == reg.tasks.Keys && reg'.nextHandle == reg.nextHandle
    ensures h in reg.tasks ==> reg'.tasks[h] == reg.tasks[h].(done := true)
    ensures forall k :: k in reg.tasks && k != h ==> reg'.tasks[k] == reg.tasks[k]
  {
    if h in reg.tasks then reg.(tasks := reg.tasks[h := reg.tasks[h].(done := true)]) else reg
  }

  /** The done-callback `running_job_tasks.discard(task)`: a no-op when already gone. */
  function DiscardTask(reg: TaskRegistry, h: nat): (reg': TaskRegistry)
    ensures reg'.tasks.Keys == reg.tasks.Keys - {h} && reg'.nextHandle == reg.nextHandle
    ensures forall k :: k in reg'.tasks ==> reg'.tasks[k] == reg.tasks[k]
  {
    reg.(tasks := reg.tasks - {h})
  }

  /** A spawned task stays tracked until it finishes, and its done-callback removes just it. */
  lemma TaskTrackedUntilDone(reg: TaskRegistry, id: nat, job: Job)
    requires ValidRegistry(reg)
    requires ScheduleJob(reg, id, job).Ok?
    ensures var (reg1, h) := ScheduleJob(reg, id, job).value;
      && h in reg1.tasks && !reg1.tasks[h].done && reg1.tasks[h].jobId == id
      && h in FinishTask(reg1, h).tasks && FinishTask(reg1, h).tasks[h].done
      && DiscardTask(FinishTask(reg1, h), h).tasks == reg.tasks
  {
    var (reg1, h) := ScheduleJob(reg, id, job).value;
    assert DiscardTask(FinishTask(reg1, h), h).tasks == reg.tasks;
  }

  /** `delete_job_in_db`: removes the row whatever its status, or raises ValueError. */
  function DeleteJobInDb(s: JobStore, id: int): (r: Result<JobStore, string>)
    ensures r.Err? <==> id !in s.jobs
    ensures r.Err? ==> r.error == NotFoundMessage(id)
    ensures r.Ok? ==> r.value.jobs.Keys == s.jobs.Keys - {id} && r.value.nextId == s.nextId
    ensures r.Ok? ==> forall k :: k in r.value.jobs ==> r.value.jobs[k] == s.jobs[k]
  {
    if id !in s.jobs then Err(NotFoundMessage(id))
    else Ok(JobStore(s.jobs - {id}, s.nextId))
  }

  datatype HealthReport = JobHealth(jobId: int, status: StoredStatus) | HealthError(error: string)

  /** `health_check_job`: the stored status of a present job, an error dict otherwise. */
  function HealthCheckJob(s: JobStore, id: int): (r: HealthReport)
    ensures r.HealthError? <==> id !in s.jobs
    ensures r.HealthError? ==> r.error == NotFoundMessage(id)
    ensures r.JobHealth? ==> r.jobId == id && r.status == s.jobs[id].status
  {
    if id !in s.jobs then HealthError(NotFoundMessage(id)) else JobHealth(id, s.jobs[id].status)
  }

  /** `health_check`. */
  function HealthCheck(): string {
    "ok"
  }

  /** The value `stop_job_in_db` writes: the Python string, not enum value 4. */
  const StoppedText := "stopped"

  /**
    `stop_job_in_db`: only the status of that job changes, to the raw text.
    The registry of running tasks is not an argument: stopping cancels nothing.
   */
  function StopJobInDb(s: JobStore, id: int): (r: Result<JobStore, string>)
    ensures r.Err? <==> id !in s.jobs
    ensures r.Err? ==> r.error == NotFoundMessage(id)
    ensures r.Ok? ==> r.value.jobs.Keys == s.jobs.Keys && r.value.nextId == s.nextId
    ensures r.Ok? ==> r.value.jobs[id] == s.jobs[id].(status := Raw(StoppedText))
    ensures r.Ok? ==> forall k :: k in s.jobs && k != id ==> r.value.jobs[k] == s.jobs[k]
  {
    if id !in s.jobs then Err(NotFoundMessage(id))
    else Ok(s.(jobs := s.jobs[id := s.jobs[id].(status := Raw(StoppedText))]))
  }

  /** Stopping twice is the same as stopping once; a stopped job is never stored as enum 4. */
  lemma StopIdempotent(s: JobStore, id: int)
    requires id in s.jobs
    ensures StopJobInDb(StopJobInDb(s, id).value, id) == StopJobInDb(s, id)
    ensures StopJobInDb(s, id).value.jobs[id].status != Enum(Stopped)
  {
    var once := StopJobInDb(s, id).value;
    assert StopJobInDb(once, id).value.jobs == once.jobs;
  }

  /** A readtime job whose status is not enum value 4 (raw "stopped" counts as live). */
  predicate IsLiveReadtime(j: Job) {
    j.jobType == JobTypeCode(Readtime) && NotStopped(j.status)
  }

  predicate HasLiveReadtime(s: JobStore) {
    exists id :: id in s.jobs && IsLiveReadtime(s.jobs[id])
  }

  const PlaceholderReadtime := JobCreate("default_source_account", 0, "default_dest_account", 0, 1)

  /** `ensure_readtime_job_exists`. */
  function EnsureReadtimeJobExists(s: JobStore): (s': JobStore)
    requires ValidStore(s)
    ensures ValidStore(s') && HasLiveReadtime(s')
    ensures HasLiveReadtime(s) ==> s' == s
    ensures !HasLiveReadtime(s) ==> s' == CreateJobInDb(s, PlaceholderReadtime).0
  {
    if HasLiveReadtime(s) then s
    else
      var (s', id) := CreateJobInDb(s, PlaceholderReadtime);
      assert IsLiveReadtime(s'.jobs[id]);
      s'
  }

  /** A second call changes nothing. */
  lemma EnsureReadtimeIdempotent(s: JobStore)
    requires ValidStore(s)
    ensures EnsureReadtimeJobExists(EnsureReadtimeJobExists(s)) == EnsureReadtimeJobExists(s)
  {
  }

  /** With no live readtime job, exactly one placeholder row is added: channels 0, pending. */
  lemma EnsureReadtimeCreatesOne(s: JobStore)
    requires ValidStore(s)
    requires !HasLiveReadtime(s)
    ensures var s' := EnsureReadtimeJobExists(s);
      && |s'.jobs| == |s.jobs| + 1
      && s.nextId in s'.jobs
      && s'.jobs[s.nextId] == Job("default_source_account", 0, "default_dest_account", 0, 1, Enum(Pending))
  {
    CreateAddsOneJob(s, PlaceholderReadtime);
  }

  /** A job stopped through `stop_job_in_db` still satisfies the readtime check. */
  lemma RawStoppedCountsAsLive(s: JobStore, id: nat)
    requires ValidStore(s) && id in s.jobs && s.jobs[id].jobType == 1
    ensures HasLiveReadtime(StopJobInDb(s, id).value)
    ensures EnsureReadtimeJobExists(StopJobInDb(s, id).value) == StopJobInDb(s, id).value
  {
    var s' := StopJobInDb(s, id).value;
    assert IsLiveReadtime(s'.jobs[id]);
  }

  /** The rows the load step schedules: status in {pending, running, failed} and not 4. */
  function EligibleJobs(s: JobStore): set<nat> {
    set id | id in s.jobs && IsSchedulable(s.jobs[id].status) && NotStopped(s.jobs[id].status)
  }

  /** The eligible rows whose type selects a runner. */
  function RunnableJobs(s: JobStore): set<nat> {
    set id | id in EligibleJobs(s) && RunnerFor(s.jobs[id].jobType).Some?
  }

  /** Cancel every tracked task that is not done, then clear the registry. */
  function CancelAndClear(reg: TaskRegistry): (r: (set<nat>, TaskRegistry))
    requires ValidRegistry(reg)
    ensures var (cancelled, reg') := r;
      && cancelled <= reg.tasks.Keys
      && (forall h :: h in reg.tasks ==> (h in cancelled <==> !reg.tasks[h].done))
      && reg'.tasks == map[] && reg'.nextHandle == reg.nextHandle
  {
    var cancelled := set h | h in reg.tasks && !reg.tasks[h].done;
    (cancelled, TaskRegistry(map[], reg.nextHandle))
  }

  /** At most one tracked task per job id. */
  predicate OneTaskPerJob(reg: TaskRegistry) {
    forall h1, h2 :: h1 in reg.tasks && h2 in reg.tasks && reg.tasks[h1].jobId == reg.tasks[h2].jobId ==> h1 == h2
  }

  /** The registry holds exactly one fresh task per runnable row, with the runner its type selects. */
  predicate TracksExactly(reg: TaskRegistry, s: JobStore) {
    && OneTaskPerJob(reg)
    && (forall h :: h in reg.tasks ==>
          && reg.tasks[h].jobId in RunnableJobs(s)
          && !reg.tasks[h].done
          && Some(reg.tasks[h].runner) == RunnerFor(s.jobs[reg.tasks[h].jobId].jobType))
    && (forall id :: id in RunnableJobs(s) ==> exists h :: h in reg.tasks && reg.tasks[h].jobId == id)
  }

  /** Every tracked task belongs to a row of `done`, is live, and runs the runner its row's type selects. */
  predicate TasksFor(reg: TaskRegistry, s: JobStore, done: set<nat>) {
    forall h :: h in reg.tasks ==>
      && reg.tasks[h].jobId in done
      && reg.tasks[h].jobId in s.jobs
      && !reg.tasks[h].done
      && Some(reg.tasks[h].runner) == RunnerFor(s.jobs[reg.tasks[h].jobId].jobType)
  }

  /** Every row of `done` has a tracked task. */
  predicate Covers(reg: TaskRegistry, done: set<nat>) {
    forall id :: id in done ==> exists h :: h in reg.tasks && reg.tasks[h].jobId == id
  }

  function Spawned(reg: TaskRegistry, h: nat, id: nat, runner: Runner): TaskRegistry {
    TaskRegistry(reg.tasks[h := Task(id, runner, false)], h + 1)
  }

  lemma SpawnKeepsTasksFor(reg: TaskRegistry, s: JobStore, done: set<nat>, id: nat, h: nat, runner: Runner)
    requires TasksFor(reg, s, done) && id in s.jobs
    requires Some(runner) == RunnerFor(s.jobs[id].jobType)
    ensures TasksFor(Spawned(reg, h, id, runner), s, done + {id})
  {
  }

  lemma SpawnKeepsCovers(reg: TaskRegistry, done: set<nat>, id: nat, h: nat, runner: Runner)
    requires Covers(reg, done) && h !in reg.tasks
    ensures Covers(Spawned(reg, h, id, runner), done + {id})
  {
    var reg2 := Spawned(reg, h, id, runner);
    forall x | x in done + {id}
      ensures exists k :: k in reg2.tasks && reg2.tasks[k].jobId == x
    {
      if x == id {
        assert h in reg2.tasks && reg2.tasks[h].jobId == x;
      } else {
        var k :| k in reg.tasks && reg.tasks[k].jobId == x;
        assert k in reg2.tasks && reg2.tasks[k].jobId == x;
      }
    }
  }

  lemma SpawnKeepsOneTaskPerJob(reg: TaskRegistry, s: JobStore, done: set<nat>, id: nat, h: nat, runner: Runner)
    requires TasksFor(reg, s, done) && OneTaskPerJob(reg)
    requires id !in done && h !in reg.tasks
    ensures OneTaskPerJob(Spawned(reg, h, id, runner))
  {
  }

  lemma SpawnCounts(reg: TaskRegistry, done: set<nat>, id: nat, h: nat, runner: Runner)
    requires |reg.tasks| == |done| && id !in done && h !in reg.tasks
    ensures |Spawned(reg, h, id, runner).tasks| == |done + {id}|
  {
    assert Spawned(reg, h, id, runner).tasks.Keys == reg.tasks.Keys + {h};
  }

  /** The eligible rows already visited, split into the scheduled and the rejected ones. */
  ghost predicate Visited(s: JobStore, todo: set<nat>, scheduled: set<nat>, rejected: set<nat>) {
    && todo <= EligibleJobs(s)
    && (forall x :: x in scheduled <==> x in EligibleJobs(s) && x !in todo && x in RunnableJobs(s))
    && (forall x :: x in rejected <==> x in EligibleJobs(s) && x !in todo && x !in RunnableJobs(s))
  }

  /** The registry tracks one fresh, live task per scheduled row and nothing else. */
  predicate Tracking(s: JobStore, reg0: TaskRegistry, reg: TaskRegistry, scheduled: set<nat>) {
    && ValidRegistry(reg) && reg0.nextHandle <= reg.nextHandle
    && (forall h :: h in reg.tasks ==> reg0.nextHandle <= h)
    && TasksFor(reg, s, scheduled) && Covers(reg, scheduled) && OneTaskPerJob(reg)
    && |reg.tasks| == |scheduled|
  }

  /** What the scheduling loop keeps. */
  ghost predicate ScheduleProgress(s: JobStore, reg0: TaskRegistry, reg: TaskRegistry,
                                   todo: set<nat>, scheduled: set<nat>, rejected: set<nat>)
  {
    Visited(s, todo, scheduled, rejected) && Tracking(s, reg0, reg, scheduled)
  }

  lemma VisitRejected(s: JobStore, todo: set<nat>, scheduled: set<nat>, rejected: set<nat>, id: nat)
    requires Visited(s, todo, scheduled, rejected)
    requires id in todo && id !in RunnableJobs(s)
    ensures Visited(s, todo - {id}, scheduled, rejected + {id})
  {
  }

  lemma VisitScheduled(s: JobStore, todo: set<nat>, scheduled: set<nat>, rejected: set<nat>, id: nat)
    requires Visited(s, todo, scheduled, rejected)
    requires id in todo && id in RunnableJobs(s)
    ensures Visited(s, todo - {id}, scheduled + {id}, rejected)
  {
  }

  lemma TrackSpawned(s: JobStore, reg0: TaskRegistry, reg: TaskRegistry, scheduled: set<nat>, id: nat, runner: Runner)
    requires Tracking(s, reg0, reg, scheduled)
    requires id in s.jobs && id !in scheduled && RunnerFor(s.jobs[id].jobType) == Some(runner)
    ensures Tracking(s, reg0, Spawned(reg, reg.nextHandle, id, runner), scheduled + {id})
  {
    var h := reg.nextHandle;
    SpawnKeepsHandles(reg0, reg, id, runner);
    SpawnKeepsTasksFor(reg, s, scheduled, id, h, runner);
    SpawnKeepsCovers(reg, scheduled, id, h, runner);
    SpawnKeepsOneTaskPerJob(reg, s, scheduled, id, h, runner);
    SpawnCounts(reg, scheduled, id, h, runner);
  }

  lemma SpawnKeepsHandles(reg0: TaskRegistry, reg: TaskRegistry, id: nat, runner: Runner)
    requires ValidRegistry(reg) && reg0.nextHandle <= reg.nextHandle
    requires forall h :: h in reg.tasks ==> reg0.nextHandle <= h
    ensures var reg2 := Spawned(reg, reg.nextHandle, id, runner);
      && ValidRegistry(reg2) && reg0.nextHandle <= reg2.nextHandle
      && (forall h :: h in reg2.tasks ==> reg0.nextHandle <= h)
  {
  }

  lemma RejectStep(s: JobStore, reg0: TaskRegistry, reg: TaskRegistry,
                   todo: set<nat>, scheduled: set<nat>, rejected: set<nat>, id: nat)
    requires ScheduleProgress(s, reg0, reg, todo, scheduled, rejected)
    requires id in todo && RunnerFor(s.jobs[id].jobType).None?
    ensures ScheduleProgress(s, reg0, reg, todo - {id}, scheduled, rejected + {id})
  {
    VisitRejected(s, todo, scheduled, rejected, id);
  }

  lemma SpawnStep(s: JobStore, reg0: TaskRegistry, reg: TaskRegistry,
                  todo: set<nat>, scheduled: set<nat>, rejected: set<nat>, id: nat, runner: Runner)
    requires ScheduleProgress(s, reg0, reg, todo, scheduled, rejected)
    requires id in todo && RunnerFor(s.jobs[id].jobType) == Some(runner)
    ensures ScheduleProgress(s, reg0, Spawned(reg, reg.nextHandle, id, runner),
                             todo - {id}, scheduled + {id}, rejected)
  {
    assert id in EligibleJobs(s) && id in RunnableJobs(s);
    VisitScheduled(s, todo, scheduled, rejected, id);
    TrackSpawned(s, reg0, reg, scheduled, id, runner);
  }

  lemma ScheduleStart(s: JobStore, reg: TaskRegistry)
    requires ValidRegistry(reg) && reg.tasks == map[]
    ensures ScheduleProgress(s, reg, reg, EligibleJobs(s), {}, {})
  {
  }

  lemma ScheduleDone(s: JobStore, reg0: TaskRegistry, reg: TaskRegistry,
                     scheduled: set<nat>, rejected: set<nat>)
    requires ScheduleProgress(s, reg0, reg, {}, scheduled, rejected)
    ensures TracksExactly(reg, s)
    ensures |reg.tasks| == |RunnableJobs(s)|
    ensures rejected == EligibleJobs(s) - RunnableJobs(s)
  {
    assert scheduled == RunnableJobs(s);
    ScheduledAllRunnable(reg, s);
  }

  /**
    One `schedule_job` per eligible row, starting from an empty registry.
    Rows whose type is invalid raise ValueError inside their own task; they
    are reported and spawn nothing, and the other rows are still scheduled.
   */
  method ScheduleEligible(s: JobStore, reg: TaskRegistry) returns (reg': TaskRegistry, rejected: set<nat>)
    requires ValidRegistry(reg) && reg.tasks == map[]
    ensures ValidRegistry(reg')
    ensures forall h :: h in reg'.tasks ==> reg.nextHandle <= h
    ensures TracksExactly(reg', s)
    ensures |reg'.tasks| == |RunnableJobs(s)|
    ensures rejected == EligibleJobs(s) - RunnableJobs(s)
  {
    reg' := reg;
    rejected := {};
    var todo := EligibleJobs(s);
    var scheduled: set<nat> := {};
    ScheduleStart(s, reg);
    while todo != {}
      invariant ScheduleProgress(s, reg, reg', todo, scheduled, rejected)
      decreases |todo|
    {
      var id :| id in todo;
      match ScheduleJob(reg', id, s.jobs[id]) {
        case Err(_) =>
          RejectStep(s, reg, reg', todo, scheduled, rejected, id);
          rejected := rejected + {id};
        case Ok(spawned) =>
          var runner := RunnerFor(s.jobs[id].jobType).value;
          SpawnStep(s, reg, reg', todo, scheduled, rejected, id, runner);
          assert spawned.0 == Spawned(reg', reg'.nextHandle, id, runner);
          reg' := spawned.0;
          scheduled := scheduled + {id};
      }
      todo := todo - {id};
    }
    ScheduleDone(s, reg, reg', scheduled, rejected);
  }

  lemma ScheduledAllRunnable(reg: TaskRegistry, s: JobStore)
    requires TasksFor(reg, s, RunnableJobs(s)) && Covers(reg, RunnableJobs(s)) && OneTaskPerJob(reg)
    ensures TracksExactly(reg, s)
  {
  }

  /** What one load or reload did. */
  datatype LoadResult = LoadResult(
    store: JobStore,         // the job table afterwards
    cancelled: set<nat>,     // the tracked tasks that were cancelled
    registry: TaskRegistry,  // `running_job_tasks` once every row was scheduled
    rejected: set<nat>)      // rows whose invalid type made `gather` raise

  /** `reload_and_schedule_all_jobs`. */
  method ReloadAndScheduleAllJobs(s: JobStore, reg: TaskRegistry) returns (r: LoadResult)
    requires ValidRegistry(reg)
    ensures r.store == s
    ensures forall h :: h in reg.tasks ==> (h in r.cancelled <==> !reg.tasks[h].done)
    ensures r.cancelled <= reg.tasks.Keys
    ensures ValidRegistry(r.registry)
    ensures r.registry.tasks.Keys !! reg.tasks.Keys
    ensures TracksExactly(r.registry, s)
    ensures |r.registry.tasks| == |RunnableJobs(s)|
    ensures r.rejected == EligibleJobs(s) - RunnableJobs(s)
  {
    var (cancelled, cleared) := CancelAndClear(reg);
    var reg', rejected := ScheduleEligible(s, cleared);
    NewHandlesAreFresh(reg, reg');
    r := LoadResult(s, cancelled, reg', rejected);
  }

  /** `load_and_schedule_jobs_on_startup`: the reload step with a readtime row ensured first. */
  method LoadAndScheduleJobsOnStartup(s: JobStore, reg: TaskRegistry) returns (r: LoadResult)
    requires ValidStore(s) && ValidRegistry(reg)
    ensures r.store == EnsureReadtimeJobExists(s)
    ensures ValidStore(r.store) && HasLiveReadtime(r.store)
    ensures forall h :: h in reg.tasks ==> (h in r.cancelled <==> !reg.tasks[h].done)
    ensures r.cancelled <= reg.tasks.Keys
    ensures ValidRegistry(r.registry)
    ensures r.registry.tasks.Keys !! reg.tasks.Keys
    ensures TracksExactly(r.registry, r.store)
    ensures |r.registry.tasks| == |RunnableJobs(r.store)|
    ensures r.rejected == EligibleJobs(r.store) - RunnableJobs(r.store)
  {
    var (cancelled, cleared) := CancelAndClear(reg);
    var s' := EnsureReadtimeJobExists(s);
    var reg', rejected := ScheduleEligible(s', cleared);
    NewHandlesAreFresh(reg, reg');
    r := LoadResult(s', cancelled, reg', rejected);
  }

  lemma NewHandlesAreFresh(reg: TaskRegistry, reg': TaskRegistry)
    requires ValidRegistry(reg)
    requires forall h :: h in reg'.tasks ==> h >= reg.nextHandle
    ensures reg'.tasks.Keys !! reg.tasks.Keys
  {
  }

  /** Completed, stopped and raw-"stopped" rows are never scheduled. */
  lemma TerminalJobsNeverScheduled(s: JobStore, reg: TaskRegistry, id: nat)
    requires TracksExactly(reg, s)
    requires id in s.jobs
    requires s.jobs[id].status in {Enum(Completed), Enum(Stopped), Raw(StoppedText)}
    ensures forall h :: h in reg.tasks ==> reg.tasks[h].jobId != id
  {
  }
}

=== FILE: text.dfy ===
/**
  The small pieces of Python string handling the model needs: `str(int)`,
  `int(str)`, `str.split(sep)`, `str.lower()` and the `in` substring test.
  Strings are sequences of characters; only ASCII case folding is modelled.
 */
module Text {
  import opened Wrappers

  predicate IsDigit(c: char) {
    '0' <= c <= '9'
  }

  predicate AllDigits(s: string) {
    forall i :: 0 <= i < |s| ==> IsDigit(s[i])
  }

  function DigitChar(d: nat): (c: char)
    requires d < 10
    ensures IsDigit(c)
  {
    (d + '0' as int) as char
  }

  function DigitValue(c: char): (d: nat)
    requires IsDigit(c)
    ensures d < 10
  {
    (c as int - '0' as int) as nat
  }

  /** `str(n)` for a natural number: decimal, no leading zeros. */
  function NatToString(n: nat): (s: string)
    ensures |s| > 0 && AllDigits(s)
    ensures s[0] == '0' ==> n == 0
    decreases n
  {
    if n < 10 then [DigitChar(n)] else NatToString(n / 10) + [DigitChar(n % 10)]
  }

  /** The value of a string of decimal digits, read most significant first. */
  function DigitsValue(s: string): nat
    requires AllDigits(s)
    decreases |s|
  {
    if |s| == 0 then 0 else 10 * DigitsValue(s[..|s| - 1]) + DigitValue(s[|s| - 1])
  }

  /** `str(i)` for any integer: a leading '-' for negatives. */
  function IntToString(i: int): (s: string)
    ensures |s| > 0
    ensures '_' !in s && ',' !in s
  {
    if i < 0 then "-" + NatToString(-i) else NatToString(i)
  }

  /**
    `int(s)` restricted to an optional sign followed by one or more decimal
    digits; every other string makes Python raise ValueError (None here).
   */
  function ParseInt(s: string): (r: Option<int>)
    ensures r.Some? ==> |s| > 0
  {
    if |s| > 0 && (s[0] == '-' || s[0] == '+') then
      var body := s[1..];
      if |body| > 0 && AllDigits(body) then
        var v: int := DigitsValue(body);
        Some(if s[0] == '-' then -v else v)
      else None
    else if |s| > 0 && AllDigits(s) then Some(DigitsValue(s))
    else None
  }

  lemma {:induction false} DigitsOfNatToString(n: nat)
    ensures DigitsValue(NatToString(n)) == n
    decreases n
  {
    var s := NatToString(n);
    if n < 10 {
      assert s[..|s| - 1] == [];
    } else {
      DigitsOfNatToString(n / 10);
      assert s[..|s| - 1] == NatToString(n / 10);
    }
  }

  /** `int(str(i)) == i` for every integer. */
  lemma IntStringRoundTrip(i: int)
    ensures ParseInt(IntToString(i)) == Some(i)
  {
    if i < 0 {
      NegativeStringRoundTrip(i);
    } else {
      NatStringRoundTrip(i);
    }
  }

  lemma NatStringRoundTrip(n: nat)
    ensures ParseInt(NatToString(n)) == Some(n)
  {
    var s := NatToString(n);
    assert IsDigit(s[0]);
    DigitsOfNatToString(n);
  }

  lemma NegativeStringRoundTrip(i: int)
    requires i < 0
    ensures ParseInt(IntToString(i)) == Some(i)
  {
    var s := IntToString(i);
    var digits := NatToString(-i);
    assert s[0] == '-' && s[1..] == digits;
    DigitsOfNatToString(-i);
  }

  /** `str.split(sep)`: the pieces between separators, always at least one. */
  function Split(s: string, sep: char): (parts: seq<string>)
    ensures |parts| >= 1
    ensures forall i :: 0 <= i < |parts| ==> sep !in parts[i]
    decreases |s|
  {
    if |s| == 0 then [""]
    else
      var rest := Split(s[1..], sep);
      if s[0] == sep then [""] + rest
      else [[s[0]] + rest[0]] + rest[1..]
  }

  /** `sep.join(parts)`. */
  function Join(parts: seq<string>, sep: char): string
    requires |parts| >= 1
    decreases |parts|
  {
    if |parts| == 1 then parts[0] else parts[0] + [sep] + Join(parts[1..], sep)
  }

  /** Joining the pieces of a split gives the original string back. */
  lemma {:induction false} JoinSplit(s: string, sep: char)
    ensures Join(Split(s, sep), sep) == s
    decreases |s|
  {
    if |s| > 0 {
      JoinSplit(s[1..], sep);
      var rest := Split(s[1..], sep);
      if s[0] == sep {
        assert Split(s, sep)[1..] == rest;
      } else {
        var parts := Split(s, sep);
        assert parts[1..] == rest[1..];
        if |rest| == 1 {
          assert Join(parts, sep) == [s[0]] + rest[0];
        } else {
          assert Join(rest, sep) == rest[0] + [sep] + Join(rest[1..], sep);
          assert Join(parts, sep) == [s[0]] + rest[0] + [sep] + Join(rest[1..], sep);
        }
        assert s == [s[0]] + s[1..];
      }
    }
  }

  lemma {:induction false} SplitWithoutSeparator(p: string, sep: char)
    requires sep !in p
    ensures Split(p, sep) == [p]
    decreases |p|
  {
    if |p| > 0 {
      SplitWithoutSeparator(p[1..], sep);
      assert [p[0]] + p[1..] == p;
    }
  }

  lemma {:induction false} SplitAfterPiece(p: string, sep: char, t: string)
    requires sep !in p
    ensures Split(p + [sep] + t, sep) == [p] + Split(t, sep)
    decreases |p|
  {
    var s := p + [sep] + t;
    if |p| == 0 {
      assert s[1..] == t;
    } else {
      assert s[1..] == p[1..] + [sep] + t;
      SplitAfterPiece(p[1..], sep, t);
      assert [p[0]] + p[1..] == p;
    }
  }

  /** Splitting a join of separator-free pieces gives the pieces back. */
  lemma {:induction false} SplitJoin(parts: seq<string>, sep: char)
    requires |parts| >= 1
    requires forall i :: 0 <= i < |parts| ==> sep !in parts[i]
    ensures Split(Join(parts, sep), sep) == parts
    decreases |parts|
  {
    if |parts| == 1 {
      SplitWithoutSeparator(parts[0], sep);
    } else {
      SplitJoin(parts[1..], sep);
      SplitAfterPiece(parts[0], sep, Join(parts[1..], sep));
      assert [parts[0]] + parts[1..] == parts;
    }
  }

  /** ASCII `str.lower()`. */
  function LowerChar(c: char): char {
    if 'A' <= c <= 'Z' then (c as int - 'A' as int + 'a' as int) as char else c
  }

  function Lower(s: string): (r: string)
    ensures |r| == |s|
    ensures forall i :: 0 <= i < |s| ==> r[i] == LowerChar(s[i])
  {
    seq(|s|, i requires 0 <= i < |s| => LowerChar(s[i]))
  }

  /** `needle` occurs in `hay` starting at index `i`. */
  predicate OccursAt(hay: string, needle: string, i: nat) {
    i + |needle| <= |hay| && hay[i..i + |needle|] == needle
  }

  /** Python's `needle in hay` on strings. */
  predicate Contains(hay: string, needle: string) {
    exists i: nat :: i <= |hay| && OccursAt(hay, needle, i)
  }
}

=== FILE: tm_models.dfy ===
/**
  Record shapes of the `telegram_manager` package: the two integer enums,
  accounts keyed by phone number, jobs and the message log.
 */
module TmModels {
  import opened Wrappers

  /** `JobTypeEnum`: full = 0, readtime = 1. */
  datatype JobType = Full | Readtime

  function JobTypeCode(t: JobType): (n: int)
    ensures n == 0 || n == 1
  {
    match t
    case Full => 0
    case Readtime => 1
  }

  /** The enum member with a given integer value, if any. */
  function JobTypeFromCode(n: int): (r: Option<JobType>)
    ensures r.Some? <==> n == 0 || n == 1
  {
    if n == 0 then Some(Full) else if n == 1 then Some(Readtime) else None
  }

  /** `JobStatusEnum`: pending = 0 .. stopped = 4. */
  datatype JobStatus = Pending | Running | Completed | Failed | Stopped

  function StatusCode(s: JobStatus): int {
    match s
    case Pending => 0
    case Running => 1
    case Completed => 2
    case Failed => 3
    case Stopped => 4
  }

  function StatusFromCode(n: int): (r: Option<JobStatus>)
    ensures r.Some? <==> 0 <= n <= 4
  {
    if n == 0 then Some(Pending)
    else if n == 1 then Some(Running)
    else if n == 2 then Some(Completed)
    else if n == 3 then Some(Failed)
    else if n == 4 then Some(Stopped)
    else None
  }

  /** Every status has a distinct code in 0..4, and the code leads back to it. */
  lemma StatusCodeRoundTrip(s: JobStatus)
    ensures 0 <= StatusCode(s) <= 4
    ensures StatusFromCode(StatusCode(s)) == Some(s)
  {
  }

  /** Every code in 0..4 names exactly one status. */
  lemma StatusFromCodeRoundTrip(n: int)
    requires 0 <= n <= 4
    ensures StatusFromCode(n).Some? && StatusCode(StatusFromCode(n).value) == n
  {
  }

  lemma StatusCodeInjective(a: JobStatus, b: JobStatus)
    ensures StatusCode(a) == StatusCode(b) ==> a == b
  {
  }

  /** Exactly two job kinds exist, with codes 0 and 1. */
  lemma JobTypeCodes(t: JobType)
    ensures JobTypeFromCode(JobTypeCode(t)) == Some(t)
    ensures t == Full <==> JobTypeCode(t) == 0
  {
  }

  /**
    The value held in the integer `status` column. Enum values are stored as
    integers; `stop_job_in_db` assigns the Python string "stopped", which the
    database keeps as text. A text value never compares equal to an integer.
   */
  datatype StoredStatus = Enum(status: JobStatus) | Raw(text: string)

  /** `status.in_([pending, running, failed])`. */
  predicate IsSchedulable(s: StoredStatus) {
    s == Enum(Pending) || s == Enum(Running) || s == Enum(Failed)
  }

  /** `status != JobStatusEnum.stopped.value`. */
  predicate NotStopped(s: StoredStatus) {
    s != Enum(Stopped)
  }

  /** The second filter of the load step removes nothing the first kept. */
  lemma SchedulableIsNotStopped(s: StoredStatus)
    ensures IsSchedulable(s) ==> NotStopped(s)
    ensures s.Raw? ==> !IsSchedulable(s) && NotStopped(s)
  {
  }

  /**
    `TelegramAccount`, keyed by phone number elsewhere (the map key is the
    primary key, so there is at most one account per phone). The class maps
    exactly these columns: the `bot_token` column a later migration adds to
    the table is not mapped, so nothing the code does can store a bot token.
   */
  datatype Account = Account(appId: int, appHashId: string, sessionFilePath: string)

  /**
    `TelegramJob` without its primary key (the key of the job map) and
    timestamps. `jobType` is a plain integer column, so out-of-enum kinds are
    representable; the account references are phone numbers.
   */
  datatype Job = Job(
    sourceAccountId: string,
    sourceChannel: int,
    destAccountId: string,
    destChannel: int,
    jobType: int,
    status: StoredStatus)

  /** The `JobCreate` request body. */
  datatype JobCreate = JobCreate(
    sourceAccountId: string,
    sourceChannel: int,
    destAccountId: string,
    destChannel: int,
    jobType: int)

  /** `TelegramMessage`: exactly one job reference and a non-null message id. */
  datatype TelegramMessage = TelegramMessage(
    jobId: nat,
    messageId: string,
    sender: Option<string>,
    content: Option<string>)

  /** A freshly built job row: the request's fields and the column default status. */
  function NewJob(req: JobCreate): Job {
    Job(req.sourceAccountId, req.sourceChannel, req.destAccountId, req.destChannel, req.jobType, Enum(Pending))
  }
}

=== FILE: wrappers.dfy ===
/** Option and Result types shared by every module of the model. */
module Wrappers {

  /** A value that may be absent; Python's `None` is `None` here. */
  datatype Option<+T> = None | Some(value: T) {
    function GetOr(default: T): T {
      match this
      case Some(v) => v
      case None => default
    }
  }

  /** The outcome of an operation that either yields a value or raises. */
  datatype Result<+T, +E> = Ok(value: T) | Err(error: E)
}
